=== FILE: README.md ===
# Skizzobot's Markov engine in Dafny

Skizzobot is an IRC bot. It learns from what people say on a channel and
answers when it is addressed. Every public message is split on spaces,
empty pieces are dropped, and a leading word that starts with the bot's
nick is dropped. What remains, if anything, is padded with an empty word at
each end. Each window of three consecutive words is then stored in a
`triplets` collection, one document per
(channel, left, middle, right), together with the number of times it was
seen. To answer, the bot picks a seed triplet and extends it word by word:

- to the right, through triplets whose first two words are the current last two;
- then to the left, through triplets whose last two words are the current first two.

Every choice is weighted by the stored counts, and the walk stops at the
empty sentinel on each side. The bot also keeps a revenge list: whoever
kicks the bot is kicked back the next time the bot is made operator.

The model has one module per part of the program:

| file | module | what it models |
|---|---|---|
| `wrappers.dfy` | `Wrappers` | `Option` (Python's `None`) and `Result` |
| `random.dfy` | `Random` | each call into `random` takes the next value of an explicit stream of draws |
| `text.dfy` | `Text` | the string operations used: `find`, slicing with a negative stop, `startswith`, `split(" ")` and `replace`; `Join`, the reference definition of `" ".join`, is what the sentence builders and the tokeniser are checked against |
| `store.dfy` | `TripletStore` | the collection as a map from key to count plus the keys in insertion order, the order in which the model's queries return them; `store_triplets` as an upsert; the `find` queries |
| `selection.dfy` | `Selection` | the running-sum loop with `break` that picks a weighted candidate |
| `ingest.dfy` | `Ingest` | the three-word windows of a line, storing them, and the invariant of every store built this way |
| `generator.dfy` | `Generator` | `get_triplets`, `find_first_triplet` and `create_sentence` |
| `bot.dfy` | `Bot` | `nick_from_source`, `handle_channel_msg`, `on_pubmsg`, `on_kick` and `apply_revengelist` |

Modelling decisions:

- **Randomness.** The engine is a pure function of the store and a stream of draws.
  - `random.randint(lo, hi)` is `lo + d % (hi - lo + 1)` for the next raw draw `d`.
  - `random.choice` of `n` items is `d % n`.
  - `Random.RandIntReaches` and `Random.ChoiceIndexReaches` show that this loses none of the values `randint` and `choice` can return.
  - The draws are taken in the source's order. The forward loop draws only when the sum of counts exceeds 1; otherwise it uses 1. The backward loop always draws from `[0, tsum]`.
- **Loop variable after an empty query.** `for triplet in triplets` leaves `triplet` bound to its last value when the list is empty. The model keeps that value:
  - An empty forward query repeats the same triplet forever. This is `Generator.ForwardDeadEndNeverFinishes`.
  - An empty backward query continues from the triplet last bound: the one the forward walk ended on, or the previous backward step.
- **Unbounded loops.** Both expansion loops take a `fuel` bound. A walk that uses it up returns `OutOfFuel`, which stands for the source looping on.
- **Errors.** `randint(1, 0)` on an empty seed query raises `ValueError`. It is the error `NoCandidates`.
- **A `None` starter.** A line that holds only the addressing word returns `None` from `handle_channel_msg`. If the draw then keeps that `None`, `get_triplets` queries `{"middle": None}`, which matches nothing, and the reply raises. `Bot.BareMentionMayStop` states this.
- **Trailing space.** `create_sentence` strips a leading space but not a trailing one, so a store holding only the line `hello` answers `"hello "` (`Generator.HelloSentence`). Every generated sentence ends in a space (`Generator.CreateSentence`).
- **One in six.** The comment at `skizzobot4.py:252` says the drawn word is kept one time in five. `randint(0, 5) != 0` keeps it for exactly one of its six values, 0 (`Bot.ChooseStarter`).

## Model

| member | source | states |
|---|---|---|
| `Random.RandInt` | skizzobot4.py:81 | `randint(lo, hi)` gives a value of the closed range `[lo, hi]` |
| `Random.RandIntReaches` | skizzobot4.py:81 | every value of the range is produced by some stream, so the stream loses no behaviour |
| `Random.ChoiceIndexReaches` | skizzobot4.py:350 | every index of a non-empty list is the outcome of some stream |
| `Random.ChoiceIndex` | skizzobot4.py:350 | `random.choice` of a non-empty list picks a valid index |
| `Text.Find` | skizzobot4.py:250 | `str.find` gives -1 exactly when the needle occurs nowhere, else the first index where it occurs |
| `Text.FindChar` | skizzobot4.py:61 | for one character, `find` is -1 iff the character is absent, else its first position |
| `Text.SliceTo` | skizzobot4.py:61 | `s[:stop]` is a prefix of length `stop`, or `len(s) + stop` (at least 0) for a negative stop, and the whole string when `stop` exceeds its length |
| `Text.Split` | skizzobot4.py:240 | `split(" ")` returns at least one piece |
| `Text.SplitNoSpace` | skizzobot4.py:240 | no piece of `split(" ")` contains a space |
| `Text.JoinSplit` | skizzobot4.py:240 | joining the pieces of `split(" ")` with single spaces gives back the message |
| `Text.SplitJoin` | skizzobot4.py:240 | splitting space-free words joined by single spaces gives back the words |
| `Text.RemoveEmpty` | skizzobot4.py:243 | the filter keeps exactly the non-empty pieces, and keeps a list without empty pieces unchanged |
| `Text.Tokenize` | skizzobot4.py:239-243 | tokens are non-empty and space-free, and are exactly the non-empty pieces of the split |
| `Text.TokenizeJoin` | skizzobot4.py:239-243 | tokenising words joined by single spaces returns the same words in the same order |
| `Text.TokenizeJoinTrailingSpace` | skizzobot4.py:239-243 | a trailing space adds no token |
| `Text.ReplaceChar` | skizzobot4.py:263 | `replace(c, w)` removes every `c`, keeps every other character, and brings in the characters of `w` only if `c` occurred; the empty string stays empty, and one character becomes `w` if it is `c` and stays otherwise |
| `Text.ReplaceCharConcat` | skizzobot4.py:263 | replacing in a concatenation is the concatenation of the replaced parts, so together with the one-character cases every character is replaced in place |
| `Text.ScrubLineBreaks` | skizzobot4.py:261-263 | the reply has no `\n` or `\r`; every other non-space character is kept; a reply without line breaks is unchanged; a single `\n` becomes a space, a single `\r` disappears, any other character stays |
| `Text.ScrubLineBreaksConcat` | skizzobot4.py:261-263 | the clean-up of a concatenation is the concatenation of the cleaned parts, so every character is handled in place |
| `TripletStore.Upsert` | skizzobot4.py:371-391 | a seen triplet's count rises by one, a new one is inserted with count 1, other counts are unchanged, and the key set gains exactly the triplet |
| `TripletStore.UpsertValid` | skizzobot4.py:377-391 | an upsert keeps each key listed once, listing and map in agreement, and counts positive |
| `TripletStore.UpsertAddsOne` | skizzobot4.py:377-391 | one upsert raises the total count by exactly one |
| `TripletStore.StoreAll` | skizzobot4.py:365-391 | after storing a batch every window of the batch is stored and no stored triplet is removed |
| `TripletStore.StoreAllAt` | skizzobot4.py:365-391 | storing a batch raises each key's count by its number of occurrences in the batch; afterwards a key is stored iff it was stored before or is in the batch |
| `TripletStore.StoreAllValid` | skizzobot4.py:365-391 | storing a batch keeps the store well-formed |
| `TripletStore.StoreAllTotal` | skizzobot4.py:365-391 | storing a batch raises the total by the batch length |
| `TripletStore.RowsFilter` | skizzobot4.py:414-421 | a scan with a filter keeps exactly the matching keys with their counts, each at most once |
| `TripletStore.FindRows` | skizzobot4.py:461-463 | `find` returns every stored matching triplet, each once, with its stored positive count, and nothing else; the counts sum to at least the number of results |
| `TripletStore.SumAtLeastLength` | skizzobot4.py:76-78 | the sum of positive counts is at least the number of candidates |
| `Selection.Pick` | skizzobot4.py:82-86 | the selection loop stops at an index of the list |
| `Selection.PickFromFirst` | skizzobot4.py:83-86 | the loop stops at the first candidate whose running sum reaches the draw, or at the last one when none does |
| `Selection.PickFirst` | skizzobot4.py:82-89 | from the start of the list: every earlier running sum is below the draw, and the chosen one reaches it or is last |
| `Selection.PickInterval` | skizzobot4.py:81-89 | a draw in `[1, tsum]` selects the candidate whose interval of running sums holds the draw |
| `Selection.PickByInterval` | skizzobot4.py:81-89 | the candidate whose interval of running sums holds a draw in `[1, tsum]` is the one the loop selects |
| `Selection.PickZero` | skizzobot4.py:513-520 | the draw 0 selects the first candidate |
| `Selection.PickIff` | skizzobot4.py:81-89 | candidate `j` is chosen iff the draw lies in `(Before(j), Through(j)]` |
| `Selection.DrawSelects` | skizzobot4.py:81-89 | a draw of `[1, tsum]` selects `j` exactly when it lies in `j`'s interval |
| `Selection.PickFrequency` | skizzobot4.py:81-89 | each candidate is chosen by exactly `count` of the `tsum` draws: selection is proportional to the counts |
| `Selection.BackwardPickFrequency` | skizzobot4.py:513-520 | with draws from `[0, tsum]`, draw 0 picks the first candidate, which gets `count + 1` draws while every other gets `count` |
| `Ingest.Windows` | skizzobot4.py:339-343 | one window per token; window `i` has the previous token (or the sentinel), token `i`, then the next token (or the sentinel) |
| `Ingest.WindowsOverlap` | skizzobot4.py:340-343 | the first window starts with the sentinel, the last ends with it, and consecutive windows overlap by two words |
| `Ingest.Ingest` | skizzobot4.py:345-346 | storing a line keeps a well-formed store well-formed |
| `Ingest.IngestAt` | skizzobot4.py:339-346 | each triplet's count rises by its number of windows in the line; exactly the old keys and the windows are stored |
| `Ingest.IngestTotal` | skizzobot4.py:339-346 | a line of `n` tokens adds exactly `n` to the total count |
| `Ingest.IngestedLineIsChain` | skizzobot4.py:339-346 | after storing, every three consecutive words of the padded line are a stored triplet |
| `Ingest.EmptyIsIngested` | skizzobot4.py:352-391 | the empty collection satisfies the ingestion invariant |
| `Ingest.IngestedByKeys` | skizzobot4.py:339-346 | a well-formed store whose every triplet is well placed satisfies the invariant |
| `Ingest.IngestPreserves` | skizzobot4.py:339-346 | storing a line of words keeps the invariant: words are space-free, each channel has a start triplet, and each triplet has a successor (unless it ends a line) and a predecessor (unless it starts one) |
| `Ingest.IngestPreservesAt` | skizzobot4.py:339-346 | the same, for one triplet of the new store |
| `Ingest.OldKeyPreserved` | skizzobot4.py:339-346 | a triplet stored before keeps its witnesses in a larger store |
| `Ingest.NewKeyPreserved` | skizzobot4.py:339-343 | a new window has its neighbouring windows as successor and predecessor, and the first window as start |
| `Generator.GetTriplets` | skizzobot4.py:411-421 | the empty starter gets every start-of-line triplet of the channel; a word gets every triplet with that middle word; `None` gets none; counts are the stored ones |
| `Generator.FindFirstTriplet` | skizzobot4.py:64-89 | it fails (the `ValueError` of `randint(1, 0)`) iff the counts sum to less than 1; otherwise it picks an index of the list using one draw |
| `Generator.FirstTripletInterval` | skizzobot4.py:81-89 | the seed is the candidate whose interval of running sums holds the draw from `[1, tsum]` |
| `Generator.ForwardDraw` | skizzobot4.py:471-474 | for `tsum > 1` the value is a draw of `[1, tsum]` and one draw is used; otherwise the value is 1 and the stream is untouched |
| `Generator.ForwardStep` | skizzobot4.py:457-485 | the stream left is the forward draw's; the next triplet is the candidate whose interval of running sums holds the draw, and it continues the current last two words; with no candidate the loop variable keeps the current triplet; in a closed store a triplet that does not end a line always has candidates |
| `Generator.BackwardStep` | skizzobot4.py:498-524 | one draw of `[0, tsum]` is always used; draw 0 takes the first candidate and any other draw the candidate whose interval holds it; the next triplet ends with the current first two words, or is the loop variable's old value when there is none |
| `Generator.WalkForward` | skizzobot4.py:456-488 | the appended words are empty iff the seed ends its line, the last one is the end sentinel, and in a closed store the words form a chain of stored triplets; the triplet the loop variable is left bound to ends its line, and it is the seed itself when the seed ends its line |
| `Generator.WalkBackward` | skizzobot4.py:490-527 | the prepended words are empty iff the seed starts its line, the first one is the start sentinel, and in a closed store they chain to the seed |
| `Generator.Expand` | skizzobot4.py:449-527 | a finished expansion keeps the seed, has sentinels at both ends, and in a closed store is a chain of stored triplets |
| `Generator.Generate` | skizzobot4.py:437-527 | it fails with `NoCandidates` iff the seed query is empty; the seed is a stored triplet answering the query; the result runs from start sentinel to end sentinel, and in a closed store (every store built by `Ingest`) its words form a chain of stored triplets |
| `Generator.AppendWords` | skizzobot4.py:488 | appending `" " + right` word by word equals joining the sentence and the words with single spaces |
| `Generator.PrependWords` | skizzobot4.py:527 | prepending `left + " "` word by word equals joining the words and the sentence with single spaces |
| `Generator.RenderJoin` | skizzobot4.py:454-527 | the sentence built by the two loops is all walk words joined by single spaces, so it is the inner words between a leading and a trailing space |
| `Generator.StripLeadingSpace` | skizzobot4.py:529-532 | at most one character is removed, from the front, and exactly when it is a space |
| `Generator.Render` | skizzobot4.py:454-532 | after stripping the leading space, the reply is the inner words joined by single spaces, followed by one space |
| `Generator.CreateSentence` | skizzobot4.py:423-535 | it fails with `NoCandidates` iff the seed query is empty; a reply is non-empty and ends in a space |
| `Generator.ClosedHasCandidates` | skizzobot4.py:461-463 | in a closed store, both expansion queries from a stored triplet that is not at that end of its line are non-empty |
| `Generator.OpensHasCandidates` | skizzobot4.py:503-505 | in a closed store, the backward query for the first two words of a stored triplet is non-empty unless the first word is the sentinel |
| `Generator.ForwardDeadEndNeverFinishes` | skizzobot4.py:457-488 | when the forward query is empty, the loop never reaches the end sentinel, whatever the fuel |
| `Generator.ChainMiddlesAreWords` | skizzobot4.py:339-343 | in an ingested store, every word strictly inside a chain is a non-empty, space-free word |
| `Generator.GeneratedTextRetokenizes` | skizzobot4.py:423-535 | on an ingested store, whenever generation succeeds, the reply's words are stored words, the reply is them joined plus one space, and tokenising it gives back exactly those words |
| `Generator.WalkRetokenizes` | skizzobot4.py:454-532 | a finished walk along a chain of an ingested store renders to its inner words joined plus one space, and tokenising that text gives those words back |
| `Generator.IngestedChannelCanStart` | skizzobot4.py:414-416 | on an ingested store, a channel with any triplet answers the empty starter without `NoCandidates` |
| `Generator.HelloSentence` | skizzobot4.py:423-535 | the store of the single line `hello` answers the empty starter with `"hello "` |
| `Generator.HelloStore` | skizzobot4.py:339-391 | storing the line `hello` stores exactly `("", "hello", "")` with count 1 |
| `Bot.NickFromSource` | skizzobot4.py:51-61 | with a `!`, the nick is the `!`-free prefix before the first `!`; without one, the last character is dropped |
| `Bot.NickFromSourceRoundTrip` | skizzobot4.py:61 | the nick of `nick + "!" + rest` is `nick` for any `!`-free nick |
| `Bot.DropAddressee` | skizzobot4.py:330-333 | the stored line is a suffix of the tokens, at most one token shorter, and shorter exactly when the first token starts with the bot's nick |
| `Bot.HandleChannelMsg` | skizzobot4.py:314-350 | an empty line (after dropping the addressing word) changes nothing and returns `None`; otherwise the starter is a word of the line, one draw is used, and the store stays well-formed |
| `Bot.HandleCounts` | skizzobot4.py:339-346 | handling a line raises each count by its number of windows, and the total by the number of words stored |
| `Bot.ChooseStarter` | skizzobot4.py:252-255 | the starter is the drawn word or `""`, and it is the drawn word iff the draw is 0 |
| `Bot.OnPubmsg` | skizzobot4.py:222-266 | the bot answers iff its nick occurs in the message; the reply has no line breaks; the nick and revenge list are unchanged; the store stays well-formed |
| `Bot.OnPubmsgTotal` | skizzobot4.py:237-247 | a message adds one stored window per contributed word; a message without words of its own stores nothing |
| `Bot.OnPubmsgPreserves` | skizzobot4.py:237-247 | public messages keep the ingestion invariant |
| `Bot.MentionWithWordsHasCandidates` | skizzobot4.py:245-259 | a message that mentions the bot and has words of its own is never answered with `NoCandidates` |
| `Bot.StoredLineHasSeeds` | skizzobot4.py:336-346 | right after a line is stored, the start query and the query for any of its words find a candidate |
| `Bot.BareMentionMayStop` | skizzobot4.py:245-259 | a mention without other words, with the starter draw 0, ends in the `ValueError` of an empty seed query |
| `Bot.OnKick` | skizzobot4.py:209-220 | a kick of the bot adds the kicker's nick to the revenge list; any other kick changes nothing |
| `Bot.OnKickListsKicker` | skizzobot4.py:214-220 | after a kick a nick is listed iff it was listed before or kicked the bot |
| `Bot.ApplyRevengelist` | skizzobot4.py:646-661 | every listed nick is kicked exactly once, nobody else is kicked, and the list ends empty |

## Left out

- IRC: connecting, the reactor and run loop, `on_connect`, and the messages sent. `Bot.OnPubmsg` returns the reply it would send and `Bot.ApplyRevengelist` the nicks it would kick; neither sends anything.
- Bot.OnKick: when the bot is kicked, the source also rejoins the channel (JOIN) and sends the kicker a configured revenge phrase (PRIVMSG). Neither is modelled: both are IRC output, and the phrase comes from `random_msg`, which is left out. Only the change to the revenge list is modelled.
- `on_join` and its time-based throttle: it depends on the clock and only sends greetings.
- `on_mode`: mode parsing is done by the IRC library. `apply_revengelist` is modelled on its own.
- `random_msg`: it only picks a configured phrase.
- Configuration loading, database setup, `main` and logging.
- The database's concurrency. The find-then-update in `store_triplets` is modelled as one atomic step; the race between two bots updating the same triplet is not modelled.
- The random module's distribution: draws are arbitrary values of a stream. Frequencies are stated as counts of draw values (`Selection.PickFrequency`).
- Generator.WalkForward: termination is bounded by `fuel`; the unbounded source loop is represented only by `OutOfFuel`.
- Generator.WalkBackward: termination is bounded by `fuel`, as for the forward walk.
- Bot.OnPubmsg: an exception raised by `create_sentence` becomes the `Stopped` reply; what the IRC library does with the exception is not modelled.
- TripletStore.Store: query results are taken in insertion order; MongoDB does not promise a scan order. Which candidate a given draw selects therefore rests on that choice, while `Selection.PickFrequency` holds for any order.
- Documents with a missing field or a non-integer count cannot occur in the model: keys are typed and counts are integers.

=== FILE: bot.dfy ===
/** The bot's event handlers around the engine: who sent a message
    (`nick_from_source`), what a public message does to the store and what the
    bot answers (`handle_channel_msg`, `on_pubmsg`), and the revenge list kept
    between a kick and the next time the bot is made operator (`on_kick`,
    `apply_revengelist`). The IRC connection is replaced by values: the
    reply `on_pubmsg` would send and the nicks `apply_revengelist` would
    kick. The rejoin and the revenge phrase `on_kick` sends are not
    modelled. */
module Bot {
  import opened Wrappers
  import opened Text
  import opened TripletStore
  import opened Random
  import opened Ingest
  import opened Generator

  /** The bot's own nick from the configuration, its store and its revenge list. */
  datatype BotState = BotState(nick: string, store: Store, revenge: set<string>)

  /** `nick_from_source`: the part of `nick!user@host` before the first `!`.
      Without a `!`, `find` gives -1 and the slice `source[:-1]` drops the
      last character. */
  function NickFromSource(source: string): (nick: string)
    ensures '!' in source ==>
      && '!' !in nick
      && |nick| < |source|
      && source[..|nick|] == nick
      && source[|nick|] == '!'
    ensures '!' !in source ==> nick == source[..if |source| == 0 then 0 else |source| - 1]
  {
    FindChar(source, '!');
    SliceTo(source, Find(source, "!"))
  }

  /** Building a source from a nick and any user and host, then parsing it,
      gives the nick back. */
  lemma NickFromSourceRoundTrip(nick: string, rest: string)
    requires '!' !in nick
    ensures NickFromSource(nick + "!" + rest) == nick
  {
    var source := nick + "!" + rest;
    assert source[|nick|] == '!';
    assert '!' in source;
    assert source[..|nick|] == nick;
  }

  /** The addressing word is removed when the line starts with a token
      beginning with the bot's nick; nothing else is removed. */
  function DropAddressee(toks: seq<string>, nick: string): (line: seq<string>)
    ensures |line| <= |toks| && line == toks[|toks| - |line|..]
    ensures |line| < |toks| <==> |toks| > 0 && StartsWith(toks[0], nick)
    ensures |toks| - |line| <= 1
  {
    if |toks| > 0 && StartsWith(toks[0], nick) then toks[1..] else toks
  }

  /** What `handle_channel_msg` leaves behind: the store, the starter word
      it returns (`None` for an empty line) and the unused draws. */
  datatype Handled = Handled(store: Store, starter: Option<string>, rest: Stream)

  /** `handle_channel_msg`: drop the addressing word, store the windows of a
      non-empty line and return one of its words chosen at random. */
  function HandleChannelMsg(s: Store, nick: string, ch: string, toks: seq<string>, rs: Stream): (r: Handled)
    ensures var line := DropAddressee(toks, nick);
      && (|line| == 0 ==> r == Handled(s, None, rs))
      && (|line| > 0 ==> r.starter.Some? && r.starter.value in line && r.rest == Tail(rs))
      && (Valid(s) ==> Valid(r.store))
  {
    var line := DropAddressee(toks, nick);
    if |line| == 0 then Handled(s, None, rs)
    else Handled(Ingest.Ingest(s, ch, line), Some(line[ChoiceIndex(|line|, rs)]), Tail(rs))
  }

  /** Handling a line raises the count of every triplet by its number of
      windows in the line, and the total by the number of words stored. */
  lemma HandleCounts(s: Store, nick: string, ch: string, toks: seq<string>, rs: Stream, k: Key)
    requires Valid(s)
    ensures var line := DropAddressee(toks, nick);
      var r := HandleChannelMsg(s, nick, ch, toks, rs);
      && Count(r.store, k) == Count(s, k) + multiset(Windows(ch, line))[k]
      && Total(r.store) == Total(s) + |line|
  {
    var line := DropAddressee(toks, nick);
    if |line| > 0 {
      IngestAt(s, ch, line, k);
      IngestTotal(s, ch, line);
    }
  }

  /** The seed of the answer: `randint(0, 5)` keeps the word drawn from the
      line only when it comes out 0, otherwise the answer starts a line. */
  function ChooseStarter(word: Option<string>, rs: Stream): (starter: Option<string>)
    ensures starter == word || starter == Some("")
    ensures starter == word <==> word == Some("") || RandInt(0, 5, rs) == 0
  {
    if RandInt(0, 5, rs) != 0 then Some("") else word
  }

  /** The bot's answer to a message. `Stopped` stands for the exception or
      the endless loop in which `create_sentence` would end. */
  datatype Reply = Silent | Say(text: string) | Stopped(error: GenError)

  datatype Outcome = Outcome(state: BotState, reply: Reply)

  /** `on_pubmsg`: tokenise, handle the line, and answer when the message
      mentions the bot's nick anywhere. The draws are used in the source's
      order: the word choice, the starter draw, then generation. */
  function OnPubmsg(b: BotState, ch: string, msg: string, rs: Stream, fuel: nat): (r: Outcome)
    requires Valid(b.store)
    ensures r.state.nick == b.nick && r.state.revenge == b.revenge
    ensures Valid(r.state.store)
    ensures r.reply.Silent? <==> forall i :: !OccursAt(msg, b.nick, i)
    ensures r.reply.Say? ==> '\n' !in r.reply.text && '\r' !in r.reply.text
  {
    var h := HandleChannelMsg(b.store, b.nick, ch, Tokenize(msg), rs);
    var b' := b.(store := h.store);
    if Find(msg, b.nick) == -1 then Outcome(b', Silent)
    else
      var starter := ChooseStarter(h.starter, h.rest);
      match CreateSentence(h.store, ch, starter, Tail(h.rest), fuel)
      case Err(e) => Outcome(b', Stopped(e))
      case Ok(text) => Outcome(b', Say(ScrubLineBreaks(text)))
  }

  /** A message adds exactly one stored window per word it contributes, and
      a message of no words (or of the addressing word alone) stores nothing. */
  lemma OnPubmsgTotal(b: BotState, ch: string, msg: string, rs: Stream, fuel: nat)
    requires Valid(b.store)
    ensures var line := DropAddressee(Tokenize(msg), b.nick);
      var r := OnPubmsg(b, ch, msg, rs, fuel);
      && Total(r.state.store) == Total(b.store) + |line|
      && (|line| == 0 ==> r.state.store == b.store)
  {
    var line := DropAddressee(Tokenize(msg), b.nick);
    HandleCounts(b.store, b.nick, ch, Tokenize(msg), rs, Key(ch, "", "", ""));
  }

  /** Public messages keep the store a closed collection of words. */
  lemma OnPubmsgPreserves(b: BotState, ch: string, msg: string, rs: Stream, fuel: nat)
    requires Ingested(b.store)
    ensures Ingested(OnPubmsg(b, ch, msg, rs, fuel).state.store)
  {
    var toks := Tokenize(msg);
    var line := DropAddressee(toks, b.nick);
    if |line| > 0 {
      assert forall i :: 0 <= i < |line| ==> IsWord(line[i]);
      IngestPreserves(b.store, ch, line);
    }
  }

  /** A message that mentions the bot and carries words of its own is
      always answered from candidates: the line just stored supplies a
      start-of-line triplet and a triplet around every one of its words. */
  lemma MentionWithWordsHasCandidates(b: BotState, ch: string, msg: string, rs: Stream, fuel: nat)
    requires Valid(b.store)
    requires |DropAddressee(Tokenize(msg), b.nick)| > 0
    ensures OnPubmsg(b, ch, msg, rs, fuel).reply != Stopped(NoCandidates)
  {
    var toks := Tokenize(msg);
    var line := DropAddressee(toks, b.nick);
    var h := HandleChannelMsg(b.store, b.nick, ch, toks, rs);
    var i :| 0 <= i < |line| && line[i] == h.starter.value;
    StoredLineHasSeeds(b.store, ch, line, i);
  }

  /** Right after a line is stored, both seed queries that can follow it
      find a candidate: the start-of-line query and the query for any of
      its words. */
  lemma StoredLineHasSeeds(s: Store, ch: string, line: seq<string>, i: nat)
    requires Valid(s)
    requires i < |line| && line[i] != ""
    ensures |GetTriplets(Ingest.Ingest(s, ch, line), ch, Some(""))| > 0
    ensures |GetTriplets(Ingest.Ingest(s, ch, line), ch, Some(line[i]))| > 0
  {
    var r := Ingest.Ingest(s, ch, line);
    var ws := Windows(ch, line);
    IngestAt(s, ch, line, ws[i]);
    IngestAt(s, ch, line, ws[0]);
    assert ws[i] in ws && ws[0] in ws;
    assert Row(ws[i], r.counts[ws[i]]) in GetTriplets(r, ch, Some(line[i]));
    assert Row(ws[0], r.counts[ws[0]]) in GetTriplets(r, ch, Some(""));
  }

  /** A message that mentions the bot but holds no other word leaves no
      starter word; when the draw keeps that missing word, the seed query
      for `None` is empty and `randint(1, 0)` raises. */
  lemma BareMentionMayStop(b: BotState, ch: string, msg: string, at: nat, rs: Stream, fuel: nat)
    requires Valid(b.store)
    requires |DropAddressee(Tokenize(msg), b.nick)| == 0
    requires OccursAt(msg, b.nick, at)
    requires RandInt(0, 5, rs) == 0
    ensures OnPubmsg(b, ch, msg, rs, fuel).reply == Stopped(NoCandidates)
  {
  }

  /** `on_kick`: when the bot itself was kicked, the kicker goes on the
      revenge list; any other kick changes nothing. */
  function OnKick(b: BotState, kicked: string, source: string): (r: BotState)
    ensures r.nick == b.nick && r.store == b.store
    ensures kicked == b.nick ==> r.revenge == b.revenge + {NickFromSource(source)}
    ensures kicked != b.nick ==> r == b
  {
    if kicked == b.nick then b.(revenge := b.revenge + {NickFromSource(source)}) else b
  }

  /** The kicker of the bot is listed after the kick, and a nick is listed
      after a kick only if it was listed before or kicked the bot. */
  lemma OnKickListsKicker(b: BotState, kicked: string, source: string, n: string)
    ensures n in OnKick(b, kicked, source).revenge <==>
      n in b.revenge || (kicked == b.nick && n == NickFromSource(source))
  {
  }

  /** `apply_revengelist`: kick every listed nick once, in the set's
      iteration order, and empty the list. */
  method ApplyRevengelist(b: BotState) returns (kicks: seq<string>, r: BotState)
    ensures r == b.(revenge := {})
    ensures Distinct(kicks)
    ensures forall n :: n in kicks <==> n in b.revenge
    ensures |kicks| == |b.revenge|
  {
    kicks := [];
    var left := b.revenge;
    while left != {}
      invariant left <= b.revenge
      invariant forall n :: n in kicks <==> n in b.revenge && n !in left
      invariant Distinct(kicks)
      invariant |kicks| + |left| == |b.revenge|
      decreases |left|
    {
      var n :| n in left;
      assert (kicks + [n])[..|kicks|] == kicks;
      kicks := kicks + [n];
      left := left - {n};
    }
    r := b.(revenge := {});
  }
}

=== FILE: generator.dfy ===
/** Sentence generation (`get_triplets`, `find_first_triplet` and
    `create_sentence`): pick a seed triplet by weighted choice, extend it to
    the right until an end-of-line sentinel, then to the left until a
    start-of-line sentinel, and join the words.

    The source loops have no bound, so each walk takes a `fuel` bound and
    reports `OutOfFuel` when it is used up. When a query finds no candidate,
    Python's `for triplet in triplets` leaves `triplet` bound to the triplet
    of the previous step; the walks keep that triplet as `cur` and reuse it. */
module Generator {
  import opened Wrappers
  import opened Text
  import opened TripletStore
  import opened Random
  import opened Selection
  import opened Ingest

  /** `NoCandidates` is the `ValueError` of `randint(1, 0)` when the seed
      query is empty; `OutOfFuel` stands for a walk that has not ended yet. */
  datatype GenError = NoCandidates | OutOfFuel

  /** Whether `k` answers the seed query: the start-of-line triplets of the
      channel for the empty starter, the triplets with the starter as middle
      word otherwise, and nothing for a missing (`None`) starter. */
  predicate SeedMatches(starter: Option<string>, ch: string, k: Key) {
    match starter
    case None => false
    case Some(w) => k.channel == ch && if w == "" then k.left == "" else k.middle == w
  }

  /** `get_triplets`. A `None` starter queries `{"middle": None}`, which no
      stored triplet matches. */
  function GetTriplets(s: Store, ch: string, starter: Option<string>): (r: seq<Row>)
    requires Valid(s)
    ensures forall i :: 0 <= i < |r| ==>
      r[i].key in s.counts && r[i].count == s.counts[r[i].key] && SeedMatches(starter, ch, r[i].key)
    ensures forall k :: k in s.counts && SeedMatches(starter, ch, k) ==> Row(k, s.counts[k]) in r
    ensures Positive(r)
  {
    match starter
    case None => []
    case Some(w) => if w == "" then FindRows(s, ByLeft(ch, "")) else FindRows(s, ByMiddle(ch, w))
  }

  /** A selected candidate and the draws left over. */
  datatype Choice = Choice(index: nat, rest: Stream)

  /** `find_first_triplet`: draw from `[1, tsum]` and select. */
  function FindFirstTriplet(rows: seq<Row>, rs: Stream): (r: Result<Choice, GenError>)
    ensures r.Err? <==> Sum(rows) < 1
    ensures r.Err? ==> r.error == NoCandidates
    ensures r.Ok? ==> r.value.index < |rows| && r.value.rest == Tail(rs)
  {
    var tsum := Sum(rows);
    if tsum < 1 then Err(NoCandidates)
    else Ok(Choice(Pick(rows, RandInt(1, tsum, rs)), Tail(rs)))
  }

  /** The seed is the candidate whose interval of running sums holds the
      draw from `[1, tsum]`. */
  lemma FirstTripletInterval(rows: seq<Row>, rs: Stream)
    requires Positive(rows) && FindFirstTriplet(rows, rs).Ok?
    ensures var i := FindFirstTriplet(rows, rs).value.index;
      Before(rows, i) < RandInt(1, Sum(rows), rs) <= Through(rows, i)
  {
    PickInterval(rows, RandInt(1, Sum(rows), rs));
  }

  /** A draw value and the draws left over. */
  datatype Drawn = Drawn(value: int, rest: Stream)

  /** The forward draw: `randint(1, tsum)` when `tsum > 1`, otherwise the
      constant 1 without touching the random source. */
  function ForwardDraw(tsum: int, rs: Stream): (d: Drawn)
    ensures tsum >= 1 ==> 1 <= d.value <= tsum
    ensures tsum <= 1 ==> d.value == 1 && d.rest == rs
    ensures tsum > 1 ==> d.rest == Tail(rs)
  {
    if tsum > 1 then Drawn(RandInt(1, tsum, rs), Tail(rs)) else Drawn(1, rs)
  }

  /** The next triplet and the draws left over. */
  datatype Step = Step(next: Key, rest: Stream)

  /** One pass of the forward loop from the current triplet `cur`: the
      candidates continue its last two words, and the one whose interval of
      running sums holds the draw is taken. */
  function ForwardStep(s: Store, ch: string, cur: Key, rs: Stream): (r: Step)
    requires Valid(s)
    ensures var rows := FindRows(s, ByLeftMiddle(ch, cur.middle, cur.right));
      var d := ForwardDraw(Sum(rows), rs);
      && r.rest == d.rest
      && (|rows| == 0 ==> r == Step(cur, rs))
      && (forall j :: 0 <= j < |rows| && Before(rows, j) < d.value <= Through(rows, j) ==> r.next == rows[j].key)
      && (|rows| > 0 ==> r.next in s.counts && r.next.channel == ch && r.next.left == cur.middle && r.next.middle == cur.right)
      && (Closed(s) && cur in s.counts && cur.channel == ch && cur.right != "" ==> |rows| > 0)
  {
    var rows := FindRows(s, ByLeftMiddle(ch, cur.middle, cur.right));
    ClosedHasCandidates(s, ch, cur);
    var d := ForwardDraw(Sum(rows), rs);
    if |rows| == 0 then Step(cur, d.rest)
    else
      SumAtLeastLength(rows);
      PickByInterval(rows, d.value);
      Step(rows[Pick(rows, d.value)].key, d.rest)
  }

  /** One pass of the backward loop: the candidates end with `left, middle`.
      The draw is `randint(0, tsum)`, taken even when there is no candidate;
      the draw 0 takes the first candidate, any other draw the candidate
      whose interval of running sums holds it. */
  function BackwardStep(s: Store, ch: string, left: string, middle: string, cur: Key, rs: Stream): (r: Step)
    requires Valid(s)
    ensures var rows := FindRows(s, ByMiddleRight(ch, left, middle));
      var d := RandInt(0, Sum(rows), rs);
      && r.rest == Tail(rs)
      && (|rows| == 0 ==> r.next == cur)
      && (|rows| > 0 && d == 0 ==> r.next == rows[0].key)
      && (d >= 1 ==> forall j :: 0 <= j < |rows| && Before(rows, j) < d <= Through(rows, j) ==> r.next == rows[j].key)
      && (|rows| > 0 ==> r.next in s.counts && r.next.channel == ch && r.next.middle == left && r.next.right == middle)
      && (Closed(s) && Opens(s, ch, left, middle) && left != "" ==> |rows| > 0)
  {
    var rows := FindRows(s, ByMiddleRight(ch, left, middle));
    OpensHasCandidates(s, ch, left, middle);
    SumAtLeastLength(rows);
    var d := RandInt(0, Sum(rows), rs);
    if |rows| == 0 then Step(cur, Tail(rs))
    else
      PickZero(rows);
      if d == 0 then Step(rows[Pick(rows, d)].key, Tail(rs))
      else
        PickByInterval(rows, d);
        Step(rows[Pick(rows, d)].key, Tail(rs))
  }

  /** The words the forward loop appended, the triplet it ended on, and the
      draws left over. */
  datatype Forward = Forward(words: seq<string>, last: Key, rest: Stream)

  /** The forward loop `while right != ""`, from triplet `cur`. It appends the
      right word of every triplet it moves to; the last word appended is the
      end sentinel. */
  function WalkForward(s: Store, ch: string, cur: Key, rs: Stream, fuel: nat): (r: Result<Forward, GenError>)
    requires Valid(s)
    ensures r.Err? ==> r.error == OutOfFuel
    ensures r.Ok? ==> (|r.value.words| == 0 <==> cur.right == "")
    ensures r.Ok? ==> ([cur.right] + r.value.words)[|r.value.words|] == ""
    ensures r.Ok? ==> |r.value.words| <= fuel
    ensures r.Ok? ==> r.value.last.right == "" && (cur.right == "" ==> r.value.last == cur)
    ensures r.Ok? && Closed(s) && cur in s.counts && cur.channel == ch ==>
      Chain(s, ch, [cur.left, cur.middle, cur.right] + r.value.words)
    decreases fuel
  {
    if cur.right == "" then
      assert [cur.left, cur.middle, cur.right] + [] == [cur.left, cur.middle, cur.right];
      Ok(Forward([], cur, rs))
    else if fuel == 0 then Err(OutOfFuel)
    else
      var step := ForwardStep(s, ch, cur, rs);
      match WalkForward(s, ch, step.next, step.rest, fuel - 1)
      case Err(e) => Err(e)
      case Ok(tail) =>
        ChainPrepend(s, ch, cur, step.next, tail.words);
        Ok(Forward([step.next.right] + tail.words, tail.last, tail.rest))
  }

  /** The words the backward loop prepended, in sentence order, and the
      draws left over. */
  datatype Backward = Backward(words: seq<string>, rest: Stream)

  /** The backward loop `while left != ""`, querying with `left, middle`;
      `cur` is the triplet the Python loop variable is bound to. The first
      word of the prepended words is the start sentinel. */
  function WalkBackward(s: Store, ch: string, left: string, middle: string, cur: Key, rs: Stream, fuel: nat)
    : (r: Result<Backward, GenError>)
    requires Valid(s)
    ensures r.Err? ==> r.error == OutOfFuel
    ensures r.Ok? ==> (|r.value.words| == 0 <==> left == "")
    ensures r.Ok? ==> (r.value.words + [left])[0] == ""
    ensures r.Ok? ==> |r.value.words| <= fuel
    ensures r.Ok? && Closed(s) && Opens(s, ch, left, middle) ==> Chain(s, ch, r.value.words + [left, middle])
    decreases fuel
  {
    if left == "" then Ok(Backward([], rs))
    else if fuel == 0 then Err(OutOfFuel)
    else
      var step := BackwardStep(s, ch, left, middle, cur, rs);
      var n := step.next;
      OpensBy(s, ch, n);
      match WalkBackward(s, ch, n.left, n.middle, n, step.rest, fuel - 1)
      case Err(e) => Err(e)
      case Ok(tail) =>
        ChainAppend(s, ch, n, tail.words, left, middle);
        Ok(Backward(tail.words + [n.left], tail.rest))
  }

  /** A completed generation: the seed triplet and the words added on each side. */
  datatype Walk = Walk(seed: Key, forward: seq<string>, backward: seq<string>)

  /** All words of the sentence, sentinels included, left to right. */
  function Words(w: Walk): seq<string> {
    w.backward + [w.seed.left, w.seed.middle, w.seed.right] + w.forward
  }

  /** The words without the two sentinels at the ends. */
  function Inner(w: Walk): seq<string> {
    var ws := Words(w);
    ws[1..|ws| - 1]
  }

  /** The walk stopped at a start sentinel on the left and an end sentinel on the right. */
  predicate Terminated(w: Walk) {
    var ws := Words(w);
    ws[0] == "" && ws[|ws| - 1] == ""
  }

  /** Both expansion loops of `create_sentence`, from the seed triplet: first
      to the right, then to the left from the seed's first two words. */
  function Expand(s: Store, ch: string, seed: Key, rs: Stream, fuel: nat): (r: Result<Walk, GenError>)
    requires Valid(s)
    ensures r.Err? ==> r.error == OutOfFuel
    ensures r.Ok? ==> r.value.seed == seed && Terminated(r.value)
    ensures r.Ok? && Closed(s) && seed in s.counts && seed.channel == ch ==> Chain(s, ch, Words(r.value))
  {
    match WalkForward(s, ch, seed, rs, fuel)
    case Err(e) => Err(e)
    case Ok(fw) =>
      match WalkBackward(s, ch, seed.left, seed.middle, fw.last, fw.rest, fuel)
      case Err(e) => Err(e)
      case Ok(bw) =>
        OpensBy(s, ch, seed);
        assert [seed.left, seed.middle, seed.right] + fw.words == [seed.left, seed.middle] + ([seed.right] + fw.words);
        ChainJoin(s, ch, bw.words, seed.left, seed.middle, [seed.right] + fw.words);
        assert bw.words + [seed.left, seed.middle] + ([seed.right] + fw.words)
          == Words(Walk(seed, fw.words, bw.words));
        Ok(Walk(seed, fw.words, bw.words))
  }

  /** The seed selection and both expansion loops of `create_sentence`. */
  function Generate(s: Store, ch: string, starter: Option<string>, rs: Stream, fuel: nat): (r: Result<Walk, GenError>)
    requires Valid(s)
    ensures r == Err(NoCandidates) <==> |GetTriplets(s, ch, starter)| == 0
    ensures r.Ok? ==> Terminated(r.value)
    ensures r.Ok? ==> r.value.seed in s.counts && SeedMatches(starter, ch, r.value.seed)
    ensures r.Ok? && Closed(s) ==> Chain(s, ch, Words(r.value))
  {
    var rows := GetTriplets(s, ch, starter);
    SumAtLeastLength(rows);
    match FindFirstTriplet(rows, rs)
    case Err(e) => Err(e)
    case Ok(first) => Expand(s, ch, rows[first.index].key, first.rest, fuel)
  }

  /** `sentence += " " + right` for each word, in order. */
  function AppendWords(sentence: string, ws: seq<string>): (r: string)
    ensures r == Join([sentence] + ws)
    decreases |ws|
  {
    if |ws| == 0 then
      assert [sentence] + ws == [sentence];
      sentence
    else
      var w := ws[0];
      var r := AppendWords(sentence + " " + w, ws[1..]);
      assert Join([sentence, w]) == sentence + " " + w by {
        JoinCons(sentence, [w]);
      }
      JoinNestFront([sentence, w], ws[1..]);
      assert [sentence] + ws == [sentence, w] + ws[1..];
      r
  }

  /** `sentence = left + " " + sentence` for each word, the word nearest the
      old sentence first. */
  function PrependWords(ws: seq<string>, sentence: string): (r: string)
    ensures r == Join(ws + [sentence])
    decreases |ws|
  {
    if |ws| == 0 then
      assert ws + [sentence] == [sentence];
      sentence
    else
      var init := ws[..|ws| - 1];
      var w := ws[|ws| - 1];
      var r := PrependWords(init, w + " " + sentence);
      assert Join([w, sentence]) == w + " " + sentence by {
        JoinCons(w, [sentence]);
      }
      JoinNestBack(init, [w, sentence]);
      assert ws + [sentence] == init + [w, sentence];
      r
  }

  /** Python's `if sentence[0] == " ": sentence = sentence[1:]`: at most one
      leading space is removed, and only a space. */
  function StripLeadingSpace(sentence: string): (r: string)
    requires |sentence| > 0
    ensures |r| <= |sentence| && r == sentence[|sentence| - |r|..]
    ensures |r| < |sentence| <==> sentence[0] == ' '
    ensures |sentence| - |r| <= 1
  {
    if sentence[0] == ' ' then sentence[1..] else sentence
  }

  /** The sentence of a walk, built exactly as `create_sentence` builds it. */
  function Render(w: Walk): (r: string)
    ensures Terminated(w) ==> r == Join(Inner(w)) + " "
  {
    var s0 := w.seed.left + " " + w.seed.middle + " " + w.seed.right;
    var s1 := AppendWords(s0, w.forward);
    var s2 := PrependWords(w.backward, s1);
    RenderJoin(w);
    StripLeadingSpace(s2)
  }

  /** The unstripped sentence is the words of the walk joined by single spaces. */
  lemma RenderJoin(w: Walk)
    ensures PrependWords(w.backward, AppendWords(w.seed.left + " " + w.seed.middle + " " + w.seed.right, w.forward))
      == Join(Words(w))
    ensures |Join(Words(w))| > 0
    ensures Terminated(w) ==> Join(Words(w)) == " " + Join(Inner(w)) + " "
  {
    var mid := [w.seed.left, w.seed.middle, w.seed.right];
    assert Join(mid) == w.seed.left + " " + w.seed.middle + " " + w.seed.right by {
      JoinCons(w.seed.left, [w.seed.middle, w.seed.right]);
      JoinCons(w.seed.middle, [w.seed.right]);
    }
    JoinNestFront(mid, w.forward);
    JoinNestBack(w.backward, mid + w.forward);
    assert w.backward + (mid + w.forward) == Words(w);
    var ws := Words(w);
    if Terminated(w) {
      JoinBetweenSentinels(ws);
    } else {
      JoinCons(ws[0], ws[1..]);
      assert ws == [ws[0]] + ws[1..];
      assert |Join(ws)| > 0;
    }
  }

  /** `create_sentence`: the rendered walk, or the error that stopped it. */
  function CreateSentence(s: Store, ch: string, starter: Option<string>, rs: Stream, fuel: nat)
    : (r: Result<string, GenError>)
    requires Valid(s)
    ensures r == Err(NoCandidates) <==> |GetTriplets(s, ch, starter)| == 0
    ensures r.Err? ==> Generate(s, ch, starter, rs, fuel).Err?
    ensures r.Ok? ==> |r.value| > 0 && r.value[|r.value| - 1] == ' '
  {
    match Generate(s, ch, starter, rs, fuel)
    case Err(e) => Err(e)
    case Ok(w) => Ok(Render(w))
  }

  /** In a closed store the expansion queries are never empty: a stored
      triplet that does not end its line has a forward candidate, and one
      that does not start its line has a backward candidate. */
  lemma ClosedHasCandidates(s: Store, ch: string, k: Key)
    requires Valid(s)
    ensures Closed(s) && k in s.counts && k.channel == ch && k.right != "" ==>
      |FindRows(s, ByLeftMiddle(ch, k.middle, k.right))| > 0
    ensures Closed(s) && k in s.counts && k.channel == ch && k.left != "" ==>
      |FindRows(s, ByMiddleRight(ch, k.left, k.middle))| > 0
  {
    if Closed(s) && k in s.counts && k.channel == ch && k.right != "" {
      assert HasSuccessor(s, k);
      var k' :| k' in s.counts && k'.channel == k.channel && k'.left == k.middle && k'.middle == k.right;
      assert Row(k', s.counts[k']) in FindRows(s, ByLeftMiddle(ch, k.middle, k.right));
    }
    if Closed(s) && k in s.counts && k.channel == ch && k.left != "" {
      assert HasPredecessor(s, k);
      var k' :| k' in s.counts && k'.channel == k.channel && k'.middle == k.left && k'.right == k.middle;
      assert Row(k', s.counts[k']) in FindRows(s, ByMiddleRight(ch, k.left, k.middle));
    }
  }

  /** Some stored triplet of the channel starts with `left, middle`: the
      backward query from those two words asks for its predecessors. */
  ghost predicate Opens(s: Store, ch: string, left: string, middle: string) {
    exists k :: k in s.counts && k.channel == ch && k.left == left && k.middle == middle
  }

  /** A stored triplet witnesses `Opens` for its own first two words. Kept
      as a lemma so that callers receive the existential as a plain fact
      instead of proving it in their own, larger contexts. */
  lemma OpensBy(s: Store, ch: string, k: Key)
    ensures k in s.counts && k.channel == ch ==> Opens(s, ch, k.left, k.middle)
  {
  }

  /** In a closed store the backward query from the first two words of a
      stored triplet that does not start its line is never empty. */
  lemma OpensHasCandidates(s: Store, ch: string, left: string, middle: string)
    requires Valid(s)
    ensures Closed(s) && Opens(s, ch, left, middle) && left != "" ==>
      |FindRows(s, ByMiddleRight(ch, left, middle))| > 0
  {
    if Closed(s) && Opens(s, ch, left, middle) && left != "" {
      var k :| k in s.counts && k.channel == ch && k.left == left && k.middle == middle;
      ClosedHasCandidates(s, ch, k);
    }
  }

  /** Where the forward query is empty, the source loop repeats the same
      triplet forever: no amount of fuel finishes the walk. */
  lemma {:induction false} ForwardDeadEndNeverFinishes(s: Store, ch: string, cur: Key, rs: Stream, fuel: nat)
    requires Valid(s)
    requires cur.right != "" && |FindRows(s, ByLeftMiddle(ch, cur.middle, cur.right))| == 0
    ensures WalkForward(s, ch, cur, rs, fuel) == Err(OutOfFuel)
    decreases fuel
  {
    if fuel > 0 {
      ForwardDeadEndNeverFinishes(s, ch, cur, rs, fuel - 1);
    }
  }

  /** A chain grows by one word on the left when the new first window is
      stored; used by the forward walk, through `ChainPrepend`. */
  lemma ChainCons(s: Store, ch: string, a: string, xs: seq<string>)
    requires Chain(s, ch, xs) && |xs| >= 2
    requires Key(ch, a, xs[0], xs[1]) in s.counts
    ensures Chain(s, ch, [a] + xs)
  {
    var ys := [a] + xs;
    forall i | 0 <= i < |ys| - 2
      ensures WindowAt(ch, ys, i) in s.counts
    {
      if i > 0 {
        assert WindowAt(ch, ys, i) == WindowAt(ch, xs, i - 1);
      }
    }
  }

  /** A chain grows by one word on the right when the new last window is
      stored; used by the backward walk, through `ChainAppend`. */
  lemma ChainSnoc(s: Store, ch: string, xs: seq<string>, c: string)
    requires Chain(s, ch, xs) && |xs| >= 2
    requires Key(ch, xs[|xs| - 2], xs[|xs| - 1], c) in s.counts
    ensures Chain(s, ch, xs + [c])
  {
    var ys := xs + [c];
    forall i | 0 <= i < |ys| - 2
      ensures WindowAt(ch, ys, i) in s.counts
    {
      if i < |xs| - 2 {
        assert WindowAt(ch, ys, i) == WindowAt(ch, xs, i);
      }
    }
  }

  /** Two chains that share a pair of words chain together. */
  lemma ChainJoin(s: Store, ch: string, xs: seq<string>, a: string, b: string, ys: seq<string>)
    ensures Chain(s, ch, xs + [a, b]) && Chain(s, ch, [a, b] + ys) ==> Chain(s, ch, xs + [a, b] + ys)
  {
    var left := xs + [a, b];
    var right := [a, b] + ys;
    var all := xs + [a, b] + ys;
    if Chain(s, ch, left) && Chain(s, ch, right) {
      forall i | 0 <= i < |all| - 2
        ensures WindowAt(ch, all, i) in s.counts
      {
        if i < |xs| {
          assert WindowAt(ch, all, i) == WindowAt(ch, left, i);
        } else {
          var j := i - |xs|;
          assert WindowAt(ch, all, i) == WindowAt(ch, right, j);
        }
      }
    }
  }


  /** A stored triplet in front of a chain that continues its last two words. */
  lemma ChainPrepend(s: Store, ch: string, cur: Key, n: Key, tail: seq<string>)
    ensures && Chain(s, ch, [n.left, n.middle, n.right] + tail)
            && cur in s.counts && cur.channel == ch && n.left == cur.middle && n.middle == cur.right
            ==> Chain(s, ch, [cur.left, cur.middle, cur.right] + ([n.right] + tail))
  {
    var xs := [n.left, n.middle, n.right] + tail;
    if Chain(s, ch, xs) && cur in s.counts && cur.channel == ch && n.left == cur.middle && n.middle == cur.right {
      assert Key(ch, cur.left, xs[0], xs[1]) == cur;
      ChainCons(s, ch, cur.left, xs);
      assert [cur.left] + xs == [cur.left, cur.middle, cur.right] + ([n.right] + tail);
    }
  }

  /** A stored triplet behind a chain that ends with its first two words. */
  lemma ChainAppend(s: Store, ch: string, n: Key, tail: seq<string>, left: string, middle: string)
    ensures && Chain(s, ch, tail + [n.left, n.middle])
            && n in s.counts && n.channel == ch && n.middle == left && n.right == middle
            ==> Chain(s, ch, tail + [n.left] + [left, middle])
  {
    var xs := tail + [n.left, n.middle];
    if Chain(s, ch, xs) && n in s.counts && n.channel == ch && n.middle == left && n.right == middle {
      assert Key(ch, xs[|xs| - 2], xs[|xs| - 1], middle) == n;
      ChainSnoc(s, ch, xs, middle);
      assert xs + [middle] == tail + [n.left] + [left, middle];
    }
  }

  /** On a store built by ingestion a generated sentence is its inner words
      joined by single spaces with one trailing space, and tokenising it
      gives those words back. */
  lemma GeneratedTextRetokenizes(s: Store, ch: string, starter: Option<string>, rs: Stream, fuel: nat)
    requires Ingested(s)
    ensures var g := Generate(s, ch, starter, rs, fuel);
      g.Ok? ==>
        && (forall i :: 0 <= i < |Inner(g.value)| ==> IsWord(Inner(g.value)[i]))
        && Render(g.value) == Join(Inner(g.value)) + " "
        && Tokenize(Render(g.value)) == Inner(g.value)
  {
    var g := Generate(s, ch, starter, rs, fuel);
    if g.Ok? {
      WalkRetokenizes(s, ch, g.value);
    }
  }

  /** A finished walk along a chain of an ingested store renders to a line
      whose tokens are exactly the walk's inner words. */
  lemma WalkRetokenizes(s: Store, ch: string, w: Walk)
    requires Ingested(s)
    requires Terminated(w) && Chain(s, ch, Words(w))
    ensures forall i :: 0 <= i < |Inner(w)| ==> IsWord(Inner(w)[i])
    ensures Render(w) == Join(Inner(w)) + " "
    ensures Tokenize(Render(w)) == Inner(w)
  {
    var ws := Words(w);
    var inner := Inner(w);
    ChainMiddlesAreWords(s, ch, ws);
    assert forall i :: 0 <= i < |inner| ==> inner[i] == ws[i + 1];
    TokenizeJoinTrailingSpace(inner);
  }

  /** In a store built by ingestion, every word strictly inside a chain is a
      space-free, non-empty word. */
  lemma ChainMiddlesAreWords(s: Store, ch: string, ws: seq<string>)
    requires Ingested(s)
    requires Chain(s, ch, ws)
    ensures forall i :: 1 <= i < |ws| - 1 ==> IsWord(ws[i])
  {
    forall i | 1 <= i < |ws| - 1
      ensures IsWord(ws[i])
    {
      assert WindowAt(ch, ws, i - 1) in s.counts;
    }
  }

  /** On a store built by ingestion, a channel that holds any triplet always
      has a start-of-line seed, so generating from the empty starter never
      fails for want of candidates. */
  lemma IngestedChannelCanStart(s: Store, ch: string, k: Key, rs: Stream, fuel: nat)
    requires Ingested(s)
    requires k in s.counts && k.channel == ch
    ensures Generate(s, ch, Some(""), rs, fuel) != Err(NoCandidates)
  {
    assert HasStart(s, k.channel);
    var k0 :| k0 in s.counts && k0.channel == ch && k0.left == "";
    assert Row(k0, s.counts[k0]) in GetTriplets(s, ch, Some(""));
  }

  /** A store holding the single line `hello` answers the empty starter with
      that word: the seed is the only triplet, both walks stop at once, and
      the trailing space of the end sentinel is kept. */
  lemma HelloSentence(ch: string, rs: Stream, fuel: nat)
    ensures CreateSentence(Ingest.Ingest(Empty, ch, ["hello"]), ch, Some(""), rs, fuel) == Ok("hello ")
  {
    var k := Key(ch, "", "hello", "");
    var s := Ingest.Ingest(Empty, ch, ["hello"]);
    HelloStore(ch);
    var rows := GetTriplets(s, ch, Some(""));
    assert rows == [Row(k, 1)] by {
      assert [k][..0] == [];
      assert Rows([], s.counts, ByLeft(ch, "")) == [];
    }
    assert Pick(rows, RandInt(1, 1, rs)) == 0;
    var w := Walk(k, [], []);
    assert Generate(s, ch, Some(""), rs, fuel) == Ok(w);
    assert Render(w) == "hello ";
  }

  /** Ingesting the line `hello` into the empty store stores the one triplet
      `("", "hello", "")` with count 1. */
  lemma HelloStore(ch: string)
    ensures Ingest.Ingest(Empty, ch, ["hello"]) == Store([Key(ch, "", "hello", "")], map[Key(ch, "", "hello", "") := 1])
  {
    var k := Key(ch, "", "hello", "");
    var ws := Windows(ch, ["hello"]);
    assert ws == [k];
    assert ws[1..] == [];
    assert Upsert(Empty, k) == Store([k], map[k := 1]);
    assert StoreAll(Empty, ws) == StoreAll(Upsert(Empty, k), []);
  }
}

=== FILE: ingest.dfy ===
/** Ingestion: a line of tokens becomes its padded three-word windows, which
    are stored with `store_triplets`; and the invariant every store built this
    way keeps. */
module Ingest {
  import opened Text
  import opened TripletStore

  /** The windows of `handle_channel_msg`: pad the tokens with an empty
      string at each end and take every run of three. Window `i` is centred
      on token `i`, with its neighbours (or the sentinel) on either side. */
  function Windows(ch: string, toks: seq<string>): (ws: seq<Key>)
    ensures |ws| == |toks|
    ensures forall i {:trigger ws[i]} :: 0 <= i < |ws| ==>
      && ws[i].channel == ch
      && ws[i].left == (if i == 0 then "" else toks[i - 1])
      && ws[i].middle == toks[i]
      && ws[i].right == (if i == |toks| - 1 then "" else toks[i + 1])
  {
    var padded := [""] + toks + [""];
    var ws := seq(|toks|, i requires 0 <= i < |toks| => Key(ch, padded[i], padded[i + 1], padded[i + 2]));
    assert forall i :: 0 <= i < |ws| ==> ws[i] == Key(ch, padded[i], padded[i + 1], padded[i + 2]);
    forall i | 0 <= i < |ws|
      ensures ws[i].left == (if i == 0 then "" else toks[i - 1])
      ensures ws[i].middle == toks[i]
      ensures ws[i].right == (if i == |toks| - 1 then "" else toks[i + 1])
    {
      assert padded[i + 1] == toks[i];
    }
    ws
  }

  /** The first window starts the line, the last ends it, and consecutive
      windows overlap by two words. */
  lemma WindowsOverlap(ch: string, toks: seq<string>)
    ensures var ws := Windows(ch, toks);
      && (|ws| > 0 ==> ws[0].left == "" && ws[|ws| - 1].right == "")
      && (forall i :: 0 <= i < |ws| - 1 ==> ws[i + 1].left == ws[i].middle && ws[i + 1].middle == ws[i].right)
  {
  }

  /** Storing the windows of one line. */
  function Ingest(s: Store, ch: string, toks: seq<string>): (r: Store)
    ensures Valid(s) ==> Valid(r)
  {
    StoreAllValid(s, Windows(ch, toks));
    StoreAll(s, Windows(ch, toks))
  }

  /** Ingestion raises the count of each triplet by the number of windows of
      the line equal to it, and stores exactly the old keys and the windows. */
  lemma IngestAt(s: Store, ch: string, toks: seq<string>, k: Key)
    ensures var r := Ingest(s, ch, toks);
      && Count(r, k) == Count(s, k) + multiset(Windows(ch, toks))[k]
      && (k in r.counts <==> k in s.counts || k in Windows(ch, toks))
  {
    StoreAllAt(s, Windows(ch, toks), k);
  }

  /** Ingesting a line of `n` tokens adds exactly `n` to the total count. */
  lemma IngestTotal(s: Store, ch: string, toks: seq<string>)
    requires Valid(s)
    ensures Total(Ingest(s, ch, toks)) == Total(s) + |toks|
  {
    StoreAllTotal(s, Windows(ch, toks));
  }

  /** Every three consecutive words of `ws` form a triplet stored for `ch`. */
  ghost predicate Chain(s: Store, ch: string, ws: seq<string>) {
    forall i :: 0 <= i < |ws| - 2 ==> WindowAt(ch, ws, i) in s.counts
  }

  /** The triplet of three consecutive words starting at position `i`. */
  function WindowAt(ch: string, ws: seq<string>, i: int): Key
    requires 0 <= i < |ws| - 2
  {
    Key(ch, ws[i], ws[i + 1], ws[i + 2])
  }

  /** After ingestion, the padded line itself is a chain of stored triplets. */
  lemma IngestedLineIsChain(s: Store, ch: string, toks: seq<string>)
    requires Valid(s)
    ensures Chain(Ingest(s, ch, toks), ch, [""] + toks + [""])
  {
    var ws := Windows(ch, toks);
    var padded := [""] + toks + [""];
    forall i | 0 <= i < |padded| - 2
      ensures WindowAt(ch, padded, i) in Ingest(s, ch, toks).counts
    {
      assert ws[i] == Key(ch, padded[i], padded[i + 1], padded[i + 2]);
      IngestAt(s, ch, toks, ws[i]);
    }
  }

  /** The channel has a stored start-of-line triplet. */
  ghost predicate HasStart(s: Store, ch: string) {
    exists k :: k in s.counts && k.channel == ch && k.left == ""
  }

  /** The invariant of a store that only ingestion has written: well-formed,
      closed, every stored field a space-free word (or the empty sentinel at
      the ends), and every channel with data has a start-of-line triplet. */
  ghost predicate Ingested(s: Store) {
    && Valid(s)
    && Closed(s)
    && (forall k :: k in s.counts ==> IsWord(k.middle) && ' ' !in k.left && ' ' !in k.right)
    && (forall k {:trigger HasStart(s, k.channel)} :: k in s.counts ==> HasStart(s, k.channel))
  }

  /** The bot starts from an empty collection, which has the invariant. */
  lemma EmptyIsIngested()
    ensures Ingested(Empty)
  {
  }

  /** Ingesting a line of words keeps the invariant. In particular the closure
      property holds: a stored triplet with `right != ""` still has a
      successor and one with `left != ""` a predecessor. */
  lemma IngestPreserves(s: Store, ch: string, toks: seq<string>)
    requires Ingested(s)
    requires forall i :: 0 <= i < |toks| ==> IsWord(toks[i])
    ensures Ingested(Ingest(s, ch, toks))
  {
    var r := Ingest(s, ch, toks);
    forall k | k in r.counts
      ensures WellPlaced(r, k)
    {
      IngestPreservesAt(s, ch, toks, k);
    }
    IngestedByKeys(r);
  }

  /** The part of the invariant that concerns one stored triplet. */
  ghost predicate WellPlaced(s: Store, k: Key) {
    && IsWord(k.middle) && ' ' !in k.left && ' ' !in k.right
    && HasStart(s, k.channel)
    && (k.right != "" ==> HasSuccessor(s, k))
    && (k.left != "" ==> HasPredecessor(s, k))
  }

  /** A well-formed store in which every triplet is well placed is ingested. */
  lemma IngestedByKeys(s: Store)
    requires Valid(s)
    requires forall k :: k in s.counts ==> WellPlaced(s, k)
    ensures Ingested(s)
  {
    assert Closed(s);
  }

  /** The per-triplet step of `IngestPreserves`: every triplet of the new
      store, old or new, is well placed. */
  lemma IngestPreservesAt(s: Store, ch: string, toks: seq<string>, k: Key)
    requires Ingested(s)
    requires forall i :: 0 <= i < |toks| ==> IsWord(toks[i])
    requires k in Ingest(s, ch, toks).counts
    ensures WellPlaced(Ingest(s, ch, toks), k)
  {
    var ws := Windows(ch, toks);
    var r := Ingest(s, ch, toks);
    IngestAt(s, ch, toks, k);
    if k in s.counts {
      forall k' | k' in s.counts
        ensures k' in r.counts
      {
        IngestAt(s, ch, toks, k');
      }
      OldKeyPreserved(s, r, k);
    } else {
      var i :| 0 <= i < |ws| && ws[i] == k;
      forall j | 0 <= j < |ws|
        ensures ws[j] in r.counts
      {
        IngestAt(s, ch, toks, ws[j]);
      }
      NewKeyPreserved(r, ch, toks, i);
    }
  }

  /** A triplet already stored keeps its witnesses in a larger store. */
  lemma OldKeyPreserved(s: Store, r: Store, k: Key)
    requires Ingested(s)
    requires s.counts.Keys <= r.counts.Keys
    requires k in s.counts
    ensures IsWord(k.middle) && ' ' !in k.left && ' ' !in k.right
    ensures HasStart(r, k.channel)
    ensures k.right != "" ==> HasSuccessor(r, k)
    ensures k.left != "" ==> HasPredecessor(r, k)
  {
    assert HasStart(s, k.channel);
    var k0 :| k0 in s.counts && k0.channel == k.channel && k0.left == "";
    assert k0 in r.counts;
    if k.right != "" {
      assert HasSuccessor(s, k);
      var k' :| k' in s.counts && k'.channel == k.channel && k'.left == k.middle && k'.middle == k.right;
      assert k' in r.counts;
    }
    if k.left != "" {
      assert HasPredecessor(s, k);
      var k' :| k' in s.counts && k'.channel == k.channel && k'.middle == k.left && k'.right == k.middle;
      assert k' in r.counts;
    }
  }

  /** Window `i` of the line has its neighbouring windows as witnesses. */
  lemma NewKeyPreserved(r: Store, ch: string, toks: seq<string>, i: nat)
    requires forall j :: 0 <= j < |toks| ==> IsWord(toks[j])
    requires forall j :: 0 <= j < |toks| ==> Windows(ch, toks)[j] in r.counts
    requires i < |toks|
    ensures var k := Windows(ch, toks)[i];
      && IsWord(k.middle) && ' ' !in k.left && ' ' !in k.right
      && HasStart(r, k.channel)
      && (k.right != "" ==> HasSuccessor(r, k))
      && (k.left != "" ==> HasPredecessor(r, k))
  {
    var ws := Windows(ch, toks);
    var k := ws[i];
    assert ws[0] in r.counts && ws[0].channel == k.channel && ws[0].left == "";
    if k.right != "" {
      var n := ws[i + 1];
      assert n in r.counts && n.channel == k.channel && n.left == k.middle && n.middle == k.right;
    }
    if k.left != "" {
      var p := ws[i - 1];
      assert p in r.counts && p.channel == k.channel && p.middle == k.left && p.right == k.middle;
    }
  }
}

=== FILE: random.dfy ===
/** The random source. Every call into Python's `random` module becomes one
    value taken from an explicit stream of draws, so the engine is a pure
    function of its inputs and of the stream. */
module Random {

  /** An unbounded supply of raw draws, `draws(pos)` being the next one. */
  datatype Stream = Stream(draws: nat -> nat, pos: nat)

  /** The next raw draw. */
  function Head(rs: Stream): nat {
    rs.draws(rs.pos)
  }

  /** The stream after its next draw has been used. */
  function Tail(rs: Stream): Stream {
    rs.(pos := rs.pos + 1)
  }

  /** `random.randint(lo, hi)`: a value of the closed range, from the next draw. */
  function RandInt(lo: int, hi: int, rs: Stream): (r: int)
    requires lo <= hi
    ensures lo <= r <= hi
  {
    lo + Head(rs) % (hi - lo + 1)
  }

  /** Every value of the range is the outcome of some stream, so modelling the
      draw by a stream loses none of the source's possible behaviours. */
  lemma RandIntReaches(lo: int, hi: int, v: int)
    requires lo <= v <= hi
    ensures exists rs: Stream :: RandInt(lo, hi, rs) == v
  {
    var d: nat := v - lo;
    var rs := Stream((i: nat) => d, 0);
    assert RandInt(lo, hi, rs) == v;
  }

  /** The index `random.choice` picks from a list of length `n`. */
  function ChoiceIndex(n: nat, rs: Stream): (i: nat)
    requires n > 0
    ensures i < n
  {
    Head(rs) % n
  }

  /** Every index is the outcome of some stream, so no choice the source can
      make is lost. */
  lemma ChoiceIndexReaches(n: nat, i: nat)
    requires i < n
    ensures exists rs: Stream :: ChoiceIndex(n, rs) == i
  {
    var rs := Stream((k: nat) => i, 0);
    assert ChoiceIndex(n, rs) == i;
  }
}

=== FILE: selection.dfy ===
/** Weighted selection: the break-on-first-match loop shared by
    `find_first_triplet` and the two expansion steps of `create_sentence`.
    The running sum of counts is compared with a draw `r`, and the first
    candidate whose running sum reaches `r` is taken. When no candidate
    reaches it, the loop variable keeps the last candidate. */
module Selection {
  import opened TripletStore

  /** The summed count of the candidates before index `k`. */
  function Before(rows: seq<Row>, k: nat): int
    requires k <= |rows|
  {
    Sum(rows[..k])
  }

  /** The running sum once candidate `k` has been added. */
  function Through(rows: seq<Row>, k: nat): int
    requires k < |rows|
  {
    Sum(rows[..k + 1])
  }

  /** Adding candidate `k` moves the running sum from `Before(k)` to
      `Through(k)`, which is `Before(k + 1)`; used by every interval proof. */
  lemma ThroughStep(rows: seq<Row>, k: nat)
    requires k < |rows|
    ensures Through(rows, k) == Before(rows, k) + rows[k].count
    ensures Through(rows, k) == Before(rows, k + 1)
  {
    assert rows[..k + 1][..k] == rows[..k];
  }

  /** The loop from index `i`, where `csum` is the running sum of the
      candidates before `i`. */
  function PickFrom(rows: seq<Row>, r: int, i: nat, csum: int): (j: nat)
    requires i < |rows|
    ensures i <= j < |rows|
    decreases |rows| - i
  {
    var c := csum + rows[i].count;
    if c >= r || i == |rows| - 1 then i else PickFrom(rows, r, i + 1, c)
  }

  /** The index the selection loop stops at for the draw `r`. */
  function Pick(rows: seq<Row>, r: int): (j: nat)
    requires |rows| > 0
    ensures j < |rows|
  {
    PickFrom(rows, r, 0, 0)
  }

  /** The loop stops at the first candidate whose running sum reaches the
      draw, or at the last candidate when none does. */
  lemma {:induction false} PickFromFirst(rows: seq<Row>, r: int, i: nat, csum: int)
    requires i < |rows|
    requires csum == Before(rows, i)
    ensures var j := PickFrom(rows, r, i, csum);
      && (Through(rows, j) >= r || j == |rows| - 1)
      && (forall k :: i <= k < j ==> Through(rows, k) < r)
    decreases |rows| - i
  {
    ThroughStep(rows, i);
    var c := csum + rows[i].count;
    if !(c >= r || i == |rows| - 1) {
      PickFromFirst(rows, r, i + 1, c);
    }
  }

  lemma PickFirst(rows: seq<Row>, r: int)
    requires |rows| > 0
    ensures Through(rows, Pick(rows, r)) >= r || Pick(rows, r) == |rows| - 1
    ensures forall k :: 0 <= k < Pick(rows, r) ==> Through(rows, k) < r
  {
    assert rows[..0] == [];
    PickFromFirst(rows, r, 0, 0);
  }

  /** Running sums of positive counts strictly increase. */
  lemma {:induction false} PrefixMonotone(rows: seq<Row>, a: nat, b: nat)
    requires Positive(rows)
    requires a <= b <= |rows|
    ensures Before(rows, a) <= Before(rows, b)
    ensures a < b ==> Before(rows, a) < Before(rows, b)
    decreases b - a
  {
    if a < b {
      PrefixMonotone(rows, a, b - 1);
      ThroughStep(rows, b - 1);
    }
  }

  /** For a draw in `[1, Sum(rows)]` the selected candidate is the one whose
      interval of running sums holds the draw. */
  lemma PickInterval(rows: seq<Row>, r: int)
    requires |rows| > 0
    ensures Positive(rows) && 1 <= r <= Sum(rows) ==>
      Before(rows, Pick(rows, r)) < r <= Through(rows, Pick(rows, r))
  {
    if !(Positive(rows) && 1 <= r <= Sum(rows)) {
      return;
    }
    var j := Pick(rows, r);
    PickFirst(rows, r);
    assert rows[..|rows|] == rows;
    ThroughStep(rows, j);
    if j > 0 {
      ThroughStep(rows, j - 1);
      assert Through(rows, j - 1) < r;
    } else {
      assert rows[..0] == [];
    }
  }

  /** The selection is exactly the interval test: candidate `j` is chosen for
      the draw `r` if and only if `r` lies in its interval of running sums. */
  lemma PickIff(rows: seq<Row>, r: int, j: nat)
    requires |rows| > 0 && Positive(rows)
    requires 1 <= r <= Sum(rows)
    requires j < |rows|
    ensures Pick(rows, r) == j <==> Before(rows, j) < r <= Through(rows, j)
  {
    var p := Pick(rows, r);
    PickInterval(rows, r);
    ThroughStep(rows, j);
    ThroughStep(rows, p);
    if p < j {
      PrefixMonotone(rows, p + 1, j);
    } else if p > j {
      PrefixMonotone(rows, j + 1, p);
    }
  }

  /** The candidate whose interval holds the draw is the one chosen. */
  lemma PickByInterval(rows: seq<Row>, r: int)
    requires |rows| > 0 && Positive(rows)
    requires 1 <= r <= Sum(rows)
    ensures forall j :: 0 <= j < |rows| && Before(rows, j) < r <= Through(rows, j) ==> Pick(rows, r) == j
  {
    forall j | 0 <= j < |rows| && Before(rows, j) < r <= Through(rows, j)
      ensures Pick(rows, r) == j
    {
      PickIff(rows, r, j);
    }
  }

  /** The draw 0, which only the backward loop can make, selects the first
      candidate. */
  lemma PickZero(rows: seq<Row>)
    requires |rows| > 0 && Positive(rows)
    ensures Pick(rows, 0) == 0
  {
    PickFirst(rows, 0);
    ThroughStep(rows, 0);
    assert rows[..0] == [];
  }

  /** The closed range `[lo, hi]` of integers. */
  function Range(lo: int, hi: int): (s: set<int>)
    ensures forall r :: r in s <==> lo <= r <= hi
    ensures |s| == if hi < lo then 0 else hi - lo + 1
    decreases hi - lo
  {
    if hi < lo then {} else Range(lo, hi - 1) + {hi}
  }

  /** The draws of `[lo, hi]` that select candidate `j`. */
  function DrawsFor(rows: seq<Row>, lo: int, hi: int, j: nat): set<int>
    requires |rows| > 0
  {
    set r | r in Range(lo, hi) && Pick(rows, r) == j
  }

  /** Each candidate is selected by exactly `count` of the `Sum(rows)` draws
      of `[1, Sum(rows)]`: selection is proportional to the counts. */
  lemma PickFrequency(rows: seq<Row>, j: nat)
    requires Positive(rows) && j < |rows|
    ensures |DrawsFor(rows, 1, Sum(rows), j)| == rows[j].count
  {
    var draws := DrawsFor(rows, 1, Sum(rows), j);
    var interval := Range(Before(rows, j) + 1, Through(rows, j));
    ThroughStep(rows, j);
    forall r
      ensures r in draws <==> r in interval
    {
      DrawSelects(rows, j, r);
    }
    assert draws == interval;
  }

  /** A draw of `[1, Sum(rows)]` selects candidate `j` exactly when it lies
      in the interval of running sums of `j`. */
  lemma DrawSelects(rows: seq<Row>, j: nat, r: int)
    requires Positive(rows) && j < |rows|
    ensures r in DrawsFor(rows, 1, Sum(rows), j) <==> Before(rows, j) < r <= Through(rows, j)
  {
    ThroughStep(rows, j);
    PrefixMonotone(rows, 0, j);
    PrefixMonotone(rows, j + 1, |rows|);
    assert rows[..|rows|] == rows;
    assert rows[..0] == [];
    if 1 <= r <= Sum(rows) {
      PickIff(rows, r, j);
    }
  }

  /** The backward expansion draws from `[0, Sum(rows)]`. The extra draw 0
      always selects the first candidate, so the first candidate is chosen by
      `count + 1` of the `Sum(rows) + 1` draws and every other by `count`. */
  lemma BackwardPickFrequency(rows: seq<Row>, j: nat)
    requires Positive(rows) && j < |rows|
    ensures Pick(rows, 0) == 0
    ensures |DrawsFor(rows, 0, Sum(rows), j)| == rows[j].count + (if j == 0 then 1 else 0)
  {
    ThroughStep(rows, 0);
    assert rows[..0] == [];
    PickFrequency(rows, j);
    SumAtLeastLength(rows);
    var upper := DrawsFor(rows, 1, Sum(rows), j);
    if j == 0 {
      assert DrawsFor(rows, 0, Sum(rows), j) == upper + {0};
    } else {
      assert DrawsFor(rows, 0, Sum(rows), j) == upper;
    }
  }
}

=== FILE: store.dfy ===
/** The triplet collection: every observed window of three words, scoped to a
    channel, with the number of times it was observed. The database is
    modelled as a finite map from the 4-tuple key to its count, together with
    the keys in insertion order. Queries return their matches in that order.
    The database itself promises no scan order, so this order is a modelling
    choice; which candidate a given draw selects depends on it, while the
    number of draws that select each candidate does not. */
module TripletStore {

  /** The identity of a stored triplet. An empty `left` marks the start of a
      line and an empty `right` marks its end. */
  datatype Key = Key(channel: string, left: string, middle: string, right: string)

  /** One document returned by a query: a key and its occurrence count. */
  datatype Row = Row(key: Key, count: int)

  datatype Store = Store(order: seq<Key>, counts: map<Key, int>)

  /** The collection before anything was stored. */
  const Empty: Store := Store([], map[])

  /** No element occurs twice: each element is absent from the part before it. */
  predicate Distinct<T(==)>(xs: seq<T>) {
    |xs| == 0 || (xs[|xs| - 1] !in xs[..|xs| - 1] && Distinct(xs[..|xs| - 1]))
  }

  /** Well-formed store: each key listed once, the listing and the map agree,
      and every count is positive. */
  ghost predicate Valid(s: Store) {
    && Distinct(s.order)
    && (forall k :: k in s.counts <==> k in s.order)
    && (forall k :: k in s.counts ==> s.counts[k] >= 1)
  }

  /** How often `k` is recorded in `m`; 0 when it is absent. */
  function Get(m: map<Key, int>, k: Key): int {
    if k in m then m[k] else 0
  }

  /** How often `k` has been observed; 0 when it never was. */
  function Count(s: Store, k: Key): int {
    Get(s.counts, k)
  }

  /** The sum of the counts of the listed keys. */
  function SumCounts(ks: seq<Key>, m: map<Key, int>): int {
    if |ks| == 0 then 0 else SumCounts(ks[..|ks| - 1], m) + Get(m, ks[|ks| - 1])
  }

  /** The number of windows ever stored. */
  function Total(s: Store): int {
    SumCounts(s.order, s.counts)
  }

  /** One step of `store_triplets`: a key seen for the first time is inserted
      with count 1, a key seen before has its count raised by one. */
  function Upsert(s: Store, k: Key): (r: Store)
    ensures Count(r, k) == Count(s, k) + 1
    ensures forall k' :: k' != k ==> Count(r, k') == Count(s, k')
    ensures r.counts.Keys == s.counts.Keys + {k}
  {
    if k in s.counts then
      Store(s.order, s.counts[k := s.counts[k] + 1])
    else
      Store(s.order + [k], s.counts[k := 1])
  }

  /** An upsert keeps the store well-formed. */
  lemma UpsertValid(s: Store, k: Key)
    ensures Valid(s) ==> Valid(Upsert(s, k))
  {
    if Valid(s) && k !in s.counts {
      assert (s.order + [k])[..|s.order|] == s.order;
    }
  }

  /** Changing the count of a key that is not listed leaves the sum alone. */
  lemma {:induction false} SumCountsFrame(ks: seq<Key>, m: map<Key, int>, k: Key, v: int)
    requires k !in ks
    ensures SumCounts(ks, m[k := v]) == SumCounts(ks, m)
  {
    if |ks| > 0 {
      SumCountsFrame(ks[..|ks| - 1], m, k, v);
    }
  }

  /** Raising the count of a key listed exactly once raises the sum by one. */
  lemma {:induction false} SumCountsBump(ks: seq<Key>, m: map<Key, int>, k: Key)
    requires Distinct(ks) && k in ks && k in m
    ensures SumCounts(ks, m[k := m[k] + 1]) == SumCounts(ks, m) + 1
  {
    var init := ks[..|ks| - 1];
    if ks[|ks| - 1] == k {
      assert k !in init;
      SumCountsFrame(init, m, k, m[k] + 1);
    } else {
      assert k in init by {
        var i :| 0 <= i < |ks| && ks[i] == k;
        assert init[i] == k;
      }
      SumCountsBump(init, m, k);
    }
  }

  /** Storing one window adds exactly one to the total count. */
  lemma UpsertAddsOne(s: Store, k: Key)
    requires Valid(s)
    ensures Total(Upsert(s, k)) == Total(s) + 1
  {
    if k in s.counts {
      SumCountsBump(s.order, s.counts, k);
    } else {
      var r := Upsert(s, k);
      assert r.order[..|r.order| - 1] == s.order;
      SumCountsFrame(s.order, s.counts, k, 1);
    }
  }

  /** `store_triplets`: the windows are stored one after another. */
  function StoreAll(s: Store, ws: seq<Key>): (r: Store)
    ensures s.counts.Keys <= r.counts.Keys
    ensures forall i :: 0 <= i < |ws| ==> ws[i] in r.counts
    decreases |ws|
  {
    if |ws| == 0 then s
    else
      var r := StoreAll(Upsert(s, ws[0]), ws[1..]);
      assert forall i :: 1 <= i < |ws| ==> ws[i] == ws[1..][i - 1];
      r
  }

  /** Storing a batch keeps the store well-formed. */
  lemma {:induction false} StoreAllValid(s: Store, ws: seq<Key>)
    ensures Valid(s) ==> Valid(StoreAll(s, ws))
    decreases |ws|
  {
    if |ws| > 0 {
      UpsertValid(s, ws[0]);
      StoreAllValid(Upsert(s, ws[0]), ws[1..]);
    }
  }

  /** Storing a batch raises each key's count by its number of occurrences in
      the batch, and a key is stored afterwards exactly when it was stored
      before or occurs in the batch. */
  lemma {:induction false} StoreAllAt(s: Store, ws: seq<Key>, k: Key)
    ensures Count(StoreAll(s, ws), k) == Count(s, k) + multiset(ws)[k]
    ensures k in StoreAll(s, ws).counts <==> k in s.counts || k in ws
    decreases |ws|
  {
    if |ws| > 0 {
      var u := Upsert(s, ws[0]);
      StoreAllAt(u, ws[1..], k);
      assert ws == [ws[0]] + ws[1..];
      assert multiset(ws)[k] == (if k == ws[0] then 1 else 0) + multiset(ws[1..])[k];
      assert Count(u, k) == Count(s, k) + (if k == ws[0] then 1 else 0);
      assert k in ws <==> k == ws[0] || k in ws[1..];
    }
  }

  /** The total count grows by exactly the number of windows stored. */
  lemma {:induction false} StoreAllTotal(s: Store, ws: seq<Key>)
    requires Valid(s)
    ensures Total(StoreAll(s, ws)) == Total(s) + |ws|
    decreases |ws|
  {
    if |ws| > 0 {
      UpsertAddsOne(s, ws[0]);
      UpsertValid(s, ws[0]);
      StoreAllTotal(Upsert(s, ws[0]), ws[1..]);
    }
  }

  /** The filter documents the engine sends to the collection. */
  datatype Query =
    | ByLeft(channel: string, left: string)
    | ByMiddle(channel: string, middle: string)
    | ByLeftMiddle(channel: string, left: string, middle: string)
    | ByMiddleRight(channel: string, middle: string, right: string)

  predicate Matches(q: Query, k: Key) {
    match q
    case ByLeft(c, l) => k.channel == c && k.left == l
    case ByMiddle(c, m) => k.channel == c && k.middle == m
    case ByLeftMiddle(c, l, m) => k.channel == c && k.left == l && k.middle == m
    case ByMiddleRight(c, m, r) => k.channel == c && k.middle == m && k.right == r
  }

  /** The matching keys of `ks`, in order, with their counts. */
  function Rows(ks: seq<Key>, m: map<Key, int>, q: Query): seq<Row> {
    if |ks| == 0 then []
    else
      var init := Rows(ks[..|ks| - 1], m, q);
      var last := ks[|ks| - 1];
      if Matches(q, last) then init + [Row(last, Get(m, last))] else init
  }

  /** `Rows` keeps exactly the matching keys, with their counts, and lists
      each at most once when the keys are distinct. */
  lemma {:induction false} RowsFilter(ks: seq<Key>, m: map<Key, int>, q: Query)
    ensures var r := Rows(ks, m, q);
      && (forall i :: 0 <= i < |r| ==> Matches(q, r[i].key) && r[i].key in ks && r[i].count == Get(m, r[i].key))
      && (forall k :: k in ks && Matches(q, k) ==> Row(k, Get(m, k)) in r)
      && (Distinct(ks) ==> Distinct(r))
    decreases |ks|
  {
    if |ks| > 0 {
      var init := ks[..|ks| - 1];
      var last := ks[|ks| - 1];
      RowsFilter(init, m, q);
      assert forall k :: k in ks <==> k == last || k in init;
      if Matches(q, last) {
        var r := Rows(init, m, q) + [Row(last, Get(m, last))];
        assert r[..|r| - 1] == Rows(init, m, q);
      }
    }
  }

  /** `find(q)`: every stored triplet that matches, each once, with its count. */
  function FindRows(s: Store, q: Query): (r: seq<Row>)
    requires Valid(s)
    ensures forall i :: 0 <= i < |r| ==> Matches(q, r[i].key) && r[i].key in s.counts && r[i].count == s.counts[r[i].key]
    ensures forall k :: k in s.counts && Matches(q, k) ==> Row(k, s.counts[k]) in r
    ensures Distinct(r)
    ensures Positive(r)
    ensures Sum(r) >= |r|
  {
    RowsFilter(s.order, s.counts, q);
    var r := Rows(s.order, s.counts, q);
    SumAtLeastLength(r);
    r
  }

  /** The summed count of a list of rows. */
  function Sum(rows: seq<Row>): int {
    if |rows| == 0 then 0 else Sum(rows[..|rows| - 1]) + rows[|rows| - 1].count
  }

  ghost predicate Positive(rows: seq<Row>) {
    forall i :: 0 <= i < |rows| ==> rows[i].count >= 1
  }

  /** Positive counts sum to at least the number of rows. */
  lemma {:induction false} SumAtLeastLength(rows: seq<Row>)
    requires Positive(rows)
    ensures Sum(rows) >= |rows|
  {
    if |rows| > 0 {
      SumAtLeastLength(rows[..|rows| - 1]);
    }
  }

  /** A stored triplet not at the end of its line has a stored successor:
      the triplet whose first two words are its last two. */
  ghost predicate HasSuccessor(s: Store, k: Key) {
    exists k' :: k' in s.counts && k'.channel == k.channel && k'.left == k.middle && k'.middle == k.right
  }

  /** A stored triplet not at the start of its line has a stored predecessor. */
  ghost predicate HasPredecessor(s: Store, k: Key) {
    exists k' :: k' in s.counts && k'.channel == k.channel && k'.middle == k.left && k'.right == k.middle
  }

  /** The closure property of a store built from whole lines. */
  ghost predicate Closed(s: Store) {
    && (forall k {:trigger HasSuccessor(s, k)} :: k in s.counts && k.right != "" ==> HasSuccessor(s, k))
    && (forall k {:trigger HasPredecessor(s, k)} :: k in s.counts && k.left != "" ==> HasPredecessor(s, k))
  }
}

=== FILE: text.dfy ===
/** The string operations the bot relies on, written with Python's semantics:
    `str.find`, slicing with a possibly negative stop, `str.startswith`,
    `str.split(" ")`, `" ".join`, and single-character `str.replace`. */
module Text {

  /** `sub` occurs in `s` starting at index `i`. */
  predicate OccursAt(s: string, sub: string, i: int) {
    0 <= i && i + |sub| <= |s| && s[i..i + |sub|] == sub
  }

  /** Python's `s.find(sub)`: the index of the first occurrence, or -1. */
  function Find(s: string, sub: string): (r: int)
    ensures r == -1 || OccursAt(s, sub, r)
    ensures r == -1 <==> forall i :: !OccursAt(s, sub, i)
    ensures forall i :: 0 <= i < r ==> !OccursAt(s, sub, i)
    decreases |s|
  {
    if |sub| > |s| then -1
    else if s[..|sub|] == sub then 0
    else
      var k := Find(s[1..], sub);
      ShiftOccurrence(s, sub);
      if k == -1 then -1 else k + 1
  }

  /** Occurrences in `s[1..]` are the occurrences in `s` moved one to the left. */
  lemma ShiftOccurrence(s: string, sub: string)
    requires |s| > 0
    ensures forall j :: OccursAt(s[1..], sub, j) ==> OccursAt(s, sub, j + 1)
    ensures forall i :: OccursAt(s, sub, i) && i > 0 ==> OccursAt(s[1..], sub, i - 1)
  {
    forall j | OccursAt(s[1..], sub, j)
      ensures OccursAt(s, sub, j + 1)
    {
      assert s[1..][j..j + |sub|] == s[j + 1..j + 1 + |sub|];
    }
    forall i | OccursAt(s, sub, i) && i > 0
      ensures OccursAt(s[1..], sub, i - 1)
    {
      assert s[1..][i - 1..i - 1 + |sub|] == s[i..i + |sub|];
    }
  }

  /** A one-character occurrence is just that character at that index. */
  lemma OccursAtChar(s: string, c: char, i: int)
    ensures OccursAt(s, [c], i) <==> 0 <= i < |s| && s[i] == c
  {
    if 0 <= i < |s| {
      assert s[i..i + 1] == [s[i]];
    }
  }

  /** For a one-character needle, `Find` is the first position of that character. */
  lemma FindChar(s: string, c: char)
    ensures var k := Find(s, [c]);
      && (k == -1 <==> c !in s)
      && (k != -1 ==> 0 <= k < |s| && s[k] == c && c !in s[..k])
  {
    var k := Find(s, [c]);
    if c in s {
      var i :| 0 <= i < |s| && s[i] == c;
      OccursAtChar(s, c, i);
    }
    if k != -1 {
      OccursAtChar(s, c, k);
      if c in s[..k] {
        var i :| 0 <= i < k && s[..k][i] == c;
        OccursAtChar(s, c, i);
      }
    }
  }

  /** Python's `s[:stop]`, where a negative `stop` counts from the end. */
  function SliceTo(s: string, stop: int): (r: string)
    ensures r <= s
    ensures 0 <= stop <= |s| ==> |r| == stop
    ensures stop < 0 ==> |r| == if |s| + stop < 0 then 0 else |s| + stop
    ensures stop > |s| ==> r == s
  {
    if stop >= 0 then
      s[..if stop < |s| then stop else |s|]
    else
      s[..if |s| + stop < 0 then 0 else |s| + stop]
  }

  /** Python's `s.startswith(prefix)`. */
  predicate StartsWith(s: string, prefix: string) {
    |prefix| <= |s| && s[..|prefix|] == prefix
  }

  /** Python's `" ".join(ws)`. */
  function Join(ws: seq<string>): string {
    if |ws| == 0 then ""
    else if |ws| == 1 then ws[0]
    else ws[0] + " " + Join(ws[1..])
  }

  /** Joining two non-empty lists puts exactly one space between them. */
  lemma {:induction false} JoinConcat(xs: seq<string>, ys: seq<string>)
    requires |xs| > 0 && |ys| > 0
    ensures Join(xs + ys) == Join(xs) + " " + Join(ys)
    decreases |xs|
  {
    if |xs| == 1 {
      assert (xs + ys)[1..] == ys;
    } else {
      JoinConcat(xs[1..], ys);
      assert (xs + ys)[1..] == xs[1..] + ys;
    }
  }

  /** Joining a word in front of a list. */
  lemma JoinCons(a: string, ws: seq<string>)
    ensures Join([a] + ws) == if |ws| == 0 then a else a + " " + Join(ws)
  {
    assert ([a] + ws)[1..] == ws;
  }

  /** Joining a list with a word behind it. */
  lemma JoinSnoc(ws: seq<string>, a: string)
    ensures Join(ws + [a]) == if |ws| == 0 then a else Join(ws) + " " + a
  {
    if |ws| == 0 {
      assert ws + [a] == [a];
    } else {
      JoinConcat(ws, [a]);
    }
  }

  /** A joined list joined again in front of more words joins them all. */
  lemma JoinNestFront(xs: seq<string>, ys: seq<string>)
    requires |xs| > 0
    ensures Join([Join(xs)] + ys) == Join(xs + ys)
  {
    JoinCons(Join(xs), ys);
    if |ys| > 0 {
      JoinConcat(xs, ys);
    } else {
      assert xs + ys == xs;
    }
  }

  /** A joined list joined again behind more words joins them all. */
  lemma JoinNestBack(xs: seq<string>, ys: seq<string>)
    requires |ys| > 0
    ensures Join(xs + [Join(ys)]) == Join(xs + ys)
  {
    JoinSnoc(xs, Join(ys));
    if |xs| > 0 {
      JoinConcat(xs, ys);
    } else {
      assert xs + ys == ys;
    }
  }

  /** A list with empty words at both ends joins to its inner words with one
      space before and one after. */
  lemma JoinBetweenSentinels(ws: seq<string>)
    requires |ws| >= 3 && ws[0] == "" && ws[|ws| - 1] == ""
    ensures Join(ws) == " " + Join(ws[1..|ws| - 1]) + " "
  {
    var inner := ws[1..|ws| - 1];
    var tail := ws[1..];
    assert tail == inner + [""];
    JoinSnoc(inner, "");
    assert Join(tail) == Join(inner) + " ";
    assert Join(ws) == "" + " " + Join(tail);
  }

  /** Python's `s.split(" ")`: the pieces between single spaces, in order,
      including the empty pieces that runs of spaces produce. A leading
      character that is not a space extends the first piece of the rest. */
  function Split(s: string): (r: seq<string>)
    ensures |r| >= 1
  {
    if |s| == 0 then [""]
    else
      var rest := Split(s[1..]);
      if s[0] == ' ' then [""] + rest else [[s[0]] + rest[0]] + rest[1..]
  }

  /** No piece holds a space. */
  lemma {:induction false} SplitNoSpace(s: string)
    ensures forall i :: 0 <= i < |Split(s)| ==> ' ' !in Split(s)[i]
  {
    if |s| > 0 {
      var rest := Split(s[1..]);
      SplitNoSpace(s[1..]);
      forall i | 0 <= i < |Split(s)|
        ensures ' ' !in Split(s)[i]
      {
        if s[0] == ' ' {
          if i > 0 {
            assert Split(s)[i] == rest[i - 1];
          }
        } else if i > 0 {
          assert Split(s)[i] == rest[i];
        } else {
          assert ' ' !in rest[0];
        }
      }
    }
  }

  /** Joining the pieces with single spaces gives the string back. */
  lemma {:induction false} JoinSplit(s: string)
    ensures Join(Split(s)) == s
  {
    if |s| > 0 {
      JoinSplit(s[1..]);
      if s[0] == ' ' {
        JoinSplitSpace(s);
      } else {
        JoinSplitChar(s);
      }
    }
  }

  /** The step of `JoinSplit` for a leading space: an empty first piece. */
  lemma JoinSplitSpace(s: string)
    requires |s| > 0 && s[0] == ' '
    requires Join(Split(s[1..])) == s[1..]
    ensures Join(Split(s)) == s
  {
    var rest := Split(s[1..]);
    JoinCons("", rest);
    assert s == " " + s[1..];
  }

  /** The step of `JoinSplit` for a leading non-space: it extends the first piece. */
  lemma JoinSplitChar(s: string)
    requires |s| > 0 && s[0] != ' '
    requires Join(Split(s[1..])) == s[1..]
    ensures Join(Split(s)) == s
  {
    var rest := Split(s[1..]);
    assert Split(s) == [[s[0]] + rest[0]] + rest[1..];
    JoinExtendFirst(s[0], rest);
    assert s == [s[0]] + s[1..];
  }

  /** Putting a character in front of the first word puts it in front of the join. */
  lemma JoinExtendFirst(c: char, ws: seq<string>)
    requires |ws| > 0
    ensures Join([[c] + ws[0]] + ws[1..]) == [c] + Join(ws)
  {
    var r := [[c] + ws[0]] + ws[1..];
    if |ws| == 1 {
      assert r == [[c] + ws[0]];
    } else {
      var rest := Join(ws[1..]);
      assert r[1..] == ws[1..];
      assert Join(r) == [c] + ws[0] + " " + rest;
      Assoc([c], ws[0], " ");
      Assoc([c], ws[0] + " ", rest);
    }
  }

  /** Splitting a space-free word in front of a space puts that word first. */
  lemma {:induction false} SplitAtSpace(a: string, b: string)
    requires ' ' !in a
    ensures Split(a + " " + b) == [a] + Split(b)
  {
    if |a| == 0 {
      assert a + " " + b == " " + b;
      assert (" " + b)[1..] == b;
    } else {
      var t := a[1..] + " " + b;
      assert (a + " " + b)[1..] == t;
      SplitAtSpace(a[1..], b);
      assert [a[0]] + a[1..] == a;
    }
  }

  /** A space-free word splits to itself. */
  lemma {:induction false} SplitWord(a: string)
    requires ' ' !in a
    ensures Split(a) == [a]
  {
    if |a| > 0 {
      SplitWord(a[1..]);
      assert [a[0]] + a[1..] == a;
    }
  }

  /** Splitting the join of space-free words gives the words back. */
  lemma {:induction false} SplitJoin(ws: seq<string>)
    requires |ws| > 0
    requires forall i :: 0 <= i < |ws| ==> ' ' !in ws[i]
    ensures Split(Join(ws)) == ws
    decreases |ws|
  {
    if |ws| == 1 {
      SplitWord(ws[0]);
    } else {
      SplitAtSpace(ws[0], Join(ws[1..]));
      SplitJoin(ws[1..]);
      assert ws == [ws[0]] + ws[1..];
    }
  }

  /** `list(filter(lambda x: x != "", ws))`. */
  function RemoveEmpty(ws: seq<string>): (r: seq<string>)
    ensures forall i :: 0 <= i < |r| ==> r[i] != ""
    ensures forall w :: w in r <==> w in ws && w != ""
    ensures (forall i :: 0 <= i < |ws| ==> ws[i] != "") ==> r == ws
  {
    if |ws| == 0 then []
    else
      var tail := RemoveEmpty(ws[1..]);
      assert forall w :: w in ws <==> w == ws[0] || w in ws[1..];
      if ws[0] == "" then tail else [ws[0]] + tail
  }

  /** Filtering distributes over concatenation. */
  lemma {:induction false} RemoveEmptyConcat(xs: seq<string>, ys: seq<string>)
    ensures RemoveEmpty(xs + ys) == RemoveEmpty(xs) + RemoveEmpty(ys)
    decreases |xs|
  {
    if |xs| > 0 {
      assert (xs + ys)[1..] == xs[1..] + ys;
      RemoveEmptyConcat(xs[1..], ys);
    } else {
      assert xs + ys == ys;
    }
  }

  /** A word is what tokenisation can produce: non-empty and without a space. */
  predicate IsWord(w: string) {
    w != "" && ' ' !in w
  }

  /** The tokenisation of `on_pubmsg`: split on single spaces, drop empty pieces. */
  function Tokenize(msg: string): (r: seq<string>)
    ensures forall i :: 0 <= i < |r| ==> IsWord(r[i])
    ensures forall w :: w in r <==> w in Split(msg) && w != ""
  {
    var r := RemoveEmpty(Split(msg));
    SplitNoSpace(msg);
    assert forall i :: 0 <= i < |r| ==> r[i] in Split(msg);
    r
  }

  /** Tokenising words joined by single spaces gives back exactly those words. */
  lemma TokenizeJoin(ws: seq<string>)
    requires forall i :: 0 <= i < |ws| ==> IsWord(ws[i])
    ensures Tokenize(Join(ws)) == ws
  {
    if |ws| == 0 {
      assert Split("") == [""];
    } else {
      SplitJoin(ws);
    }
  }

  /** Tokenising words joined by single spaces with one trailing space gives
      back exactly those words: the trailing space yields one empty piece,
      which the filter drops. */
  lemma TokenizeJoinTrailingSpace(ws: seq<string>)
    requires |ws| > 0
    requires forall i :: 0 <= i < |ws| ==> IsWord(ws[i])
    ensures Tokenize(Join(ws) + " ") == ws
  {
    JoinConcat(ws, [""]);
    assert Join(ws + [""]) == Join(ws) + " ";
    SplitJoin(ws + [""]);
    RemoveEmptyConcat(ws, [""]);
    assert RemoveEmpty([""]) == [];
    assert RemoveEmpty(ws) == ws;
  }

  /** Python's `s.replace(c, with)` for a one-character `c`. */
  function ReplaceChar(s: string, c: char, with: string): (r: string)
    ensures forall x :: x in r <==> (x in s && x != c) || (c in s && x in with)
    ensures c !in s ==> r == s
    ensures |s| == 0 ==> r == ""
    ensures |s| == 1 ==> r == if s[0] == c then with else s
  {
    if |s| == 0 then ""
    else
      var tail := ReplaceChar(s[1..], c, with);
      assert forall x :: x in s <==> x == s[0] || x in s[1..];
      (if s[0] == c then with else [s[0]]) + tail
  }

  /** Replacing works character by character: the result for a
      concatenation is the concatenation of the results. With the empty and
      one-character cases of `ReplaceChar` this fixes every result. */
  lemma {:induction false} ReplaceCharConcat(a: string, b: string, c: char, with: string)
    ensures ReplaceChar(a + b, c, with) == ReplaceChar(a, c, with) + ReplaceChar(b, c, with)
  {
    if |a| == 0 {
      assert a + b == b;
    } else {
      var ab := a + b;
      assert ab[0] == a[0] && ab[1..] == a[1..] + b;
      ReplaceCharConcat(a[1..], b, c, with);
      var head := if a[0] == c then with else [a[0]];
      var ta, tb := ReplaceChar(a[1..], c, with), ReplaceChar(b, c, with);
      assert ReplaceChar(ab, c, with) == head + (ta + tb);
      Assoc(head, ta, tb);
    }
  }

  /** Concatenation regroups freely. */
  lemma Assoc(x: string, y: string, z: string)
    ensures x + (y + z) == (x + y) + z
  {
  }

  /** The reply clean-up `msg.replace('\n', ' ').replace('\r', '')`. */
  function ScrubLineBreaks(msg: string): (r: string)
    ensures '\n' !in r && '\r' !in r
    ensures forall x :: x != '\n' && x != '\r' && x != ' ' ==> (x in r <==> x in msg)
    ensures '\n' !in msg && '\r' !in msg ==> r == msg
    ensures |msg| == 0 ==> r == ""
    ensures |msg| == 1 ==> r == if msg[0] == '\n' then " " else if msg[0] == '\r' then "" else msg
  {
    ReplaceChar(ReplaceChar(msg, '\n', " "), '\r', "")
  }

  /** The clean-up also works character by character: each line feed
      becomes a space, each carriage return disappears, and every other
      character stays where it was. */
  lemma ScrubLineBreaksConcat(a: string, b: string)
    ensures ScrubLineBreaks(a + b) == ScrubLineBreaks(a) + ScrubLineBreaks(b)
  {
    ReplaceCharConcat(a, b, '\n', " ");
    ReplaceCharConcat(ReplaceChar(a, '\n', " "), ReplaceChar(b, '\n', " "), '\r', "");
  }
}

=== FILE: wrappers.dfy ===
/** `Option` and `Result`, shared by the whole model. */
module Wrappers {

  /** A value that may be missing; Python's `None` is `None` here. */
  datatype Option<+T> = None | Some(value: T)

  /** Either a value or the error that ended the computation. */
  datatype Result<+T, +E> = Ok(value: T) | Err(error: E)
}
